=== FILE: README.md ===
# Metro Transit Pings: the alert decision core, in Dafny

This project models the decision logic of the Metro Transit Pings bus-alert
poller and proves properties of it. On every scheduled run, the poller does
the following:

- It checks that the local time is inside the active monitoring window.
- It stamps the run in its tracking store and drops tracked departures whose
  original departure is two hours old or more.
- For each configured route, it fetches the stop's departures from the
  NexTrip feed and keeps those on the route.
- For each departure on the route, it decides whether to queue a "time to
  leave" alert or, for a departure already alerted, a one-off delay update.
  Either way it records the decision in the store.
- Finally it removes duplicate alerts from the batch before handing it to
  the notifier.

The model is split into these files:

- `alert_logic.dfy` (module `AlertLogic`) holds the alert calculator as a
  value with pure functions. It computes the leave instant, the alert
  instant, the closed alert window, the relevance window and the signed
  minute differences. Instants are whole seconds since the epoch. Python's
  `round(seconds / 60)` is written out exactly as round-half-to-even
  (`RoundToMinutes`).
- `metro_api.dfy` (module `MetroApi`) holds the feed side. Departure records
  are loose JSON records whose fields may be missing. The module has the
  route/direction filter, timestamp reading with its three error cases, and
  the real-time flag. Python's `str()` and truthiness of JSON scalars are
  written out, and so is Python's `==` between them, under which `True`
  equals `1`.
- `tracking.dfy` (module `Tracking`) defines the tracked-departure record
  and the `route_trip_stop` key. It also holds pure specification functions
  for what each store operation does to the list of records, with lemmas
  about them:
  - the first-match lookups;
  - upsert and delay marking;
  - cleanup;
  - a store invariant that every operation keeps.
- `state_manager.dfy` (module `StateManagement`) holds the `StateManager`
  class. Its fields are `lastRun` and `trackedDepartures`, and its methods
  update them in place. Each method's loop is proved equal to the
  specification function in `Tracking`.
- `schedule.dfy` (module `Schedule`) holds the active-window check.
- `orchestrator.dfy` (module `Orchestrator`) holds the run itself. It
  defines a pure fold over routes and departures (`Step`,
  `ProcessDepartures`, `ProcessRoutes`, `RouteLoop`). The imperative loops
  (`CheckDeparture`, `CheckRouteDepartures`, `CheckRoutes`) run over the
  store object and are proved equal to that fold. The same file holds the
  deduplication pass, the whole `Run`, and the run-level guarantees:
  - no key is alerted twice;
  - at most one delay update is sent per key;
  - no alert or delay update is recorded in the store without being queued;
  - a well-formed store stays well-formed;
  - an unreadable timestamp ends only its own route.
- `seqs.dfy` and `wrappers.dfy` hold generic helpers: order-preserving
  filtering and subsequences, `Option` and `Result`.

## Model

| member | source | states |
|---|---|---|
| AlertLogic.RoundToMinutes | src/alert_logic.py:142-143 | the result is a nearest whole minute to the second count, and on a tie it is even |
| AlertLogic.RoundToMinutesUnique | src/alert_logic.py:142-143 | any minute count that is strictly nearest, or tied and even, is the rounded value, so the rounding is fully determined |
| AlertLogic.RoundToMinutesOdd | src/alert_logic.py:160-161 | rounding a negated duration gives the negated minute count |
| AlertLogic.AlertCalculator.LeaveTime | src/alert_logic.py:32-44 | walking for the configured time from the leave instant arrives exactly at the departure; with a non-negative walking time the leave instant is not after the departure |
| AlertLogic.AlertCalculator.AlertTime | src/alert_logic.py:46-59 | the alert instant lies the advance notice before the leave instant, and walking time plus advance notice before the departure |
| AlertLogic.AlertCalculator.ShouldAlertNow | src/alert_logic.py:61-85 | an alert is due exactly when the time left before leaving is between zero and the advance notice, both ends included |
| AlertLogic.AlertCalculator.IsDepartureRelevant | src/alert_logic.py:87-113 | a departure is relevant exactly when the time left before leaving is between zero and the advance notice plus the maximum wait, both ends included |
| AlertLogic.AlertCalculator.LeaveAndAlertTimes | src/alert_logic.py:32-59 | leave time is the walking time before the departure; alert time is the advance notice before the leave time; with non-negative settings alert <= leave <= departure |
| AlertLogic.AlertCalculator.AlertWindow | src/alert_logic.py:61-85 | should-alert holds exactly when now lies in the closed interval from the alert time to the leave time; both ends are in the window and the second just outside each end is not |
| AlertLogic.AlertCalculator.RelevanceWindow | src/alert_logic.py:87-113 | a departure is relevant exactly when now is at most max-wait minutes before the alert time and not after the leave time |
| AlertLogic.AlertCalculator.AlertImpliesRelevant | src/alert_logic.py:61-113 | with a non-negative max wait, every instant in the alert window is relevant |
| AlertLogic.AlertCalculator.MinutesUntil | src/alert_logic.py:128-143 | the result is a nearest whole minute to the time left, even on a tie |
| AlertLogic.AlertCalculator.CalculateDelay | src/alert_logic.py:145-161 | the result is a nearest whole minute to the shift between the two predictions, even on a tie |
| AlertLogic.AlertCalculator.DelaySign | src/alert_logic.py:145-161 | an unchanged prediction has delay 0; a shift of k whole minutes has delay k; the delay is positive iff the shift exceeds +30 s and negative iff it is below -30 s |
| AlertLogic.AlertCalculator.DelayAntisymmetric | src/alert_logic.py:145-161 | swapping the original and current predictions negates the delay |
| AlertLogic.AlertCalculator.MinutesUntilIsDelay | src/alert_logic.py:128-161 | minutes-until equals the delay of the target against now, and swapping the two instants negates it |
| MetroApi.FilterDeparturesByRoute | src/metro_api.py:54-82 | a record is kept iff it is in the input, its stringified route_id (default '') equals the route, and, when a direction is given, its stringified direction_id (default '') equals it; the result keeps feed order (it is a subsequence) |
| MetroApi.RouteFilterExact | src/metro_api.py:71-82 | every record that passes the route test, and the direction test when a direction is given, is kept exactly as often as it occurs in the feed; no other record is kept |
| MetroApi.FilterIdempotent | src/metro_api.py:54-82 | filtering the filter's output again returns it unchanged |
| MetroApi.ParseDepartureTime | src/metro_api.py:84-102 | success iff departure_time is present, truthy, an int or bool, and (for an int) a second of the years 1 to 9999 in UTC; the value is the timestamp, 1 for `True`, never 0 and within that range; the missing-time error arises exactly when the field is absent or falsy; the range error exactly for an int outside the range |
| MetroApi.PyKey | main.py:238-239 | the key of a scalar is never a bool and is Python-equal to the scalar |
| MetroApi.IsRealTime | src/metro_api.py:104-115 | the result is the record's `actual` value, or False when the record has none |
| Tracking.DepartureKey | src/state_manager.py:70-82 | the key is the route id, an underscore, the trip id, an underscore and the stop id, in that order and nothing else |
| Tracking.DepartureKeyInjective | src/state_manager.py:70-82 | when route and trip ids contain no underscore, equal keys imply equal route, trip and stop ids |
| Tracking.DepartureKeyCollision | src/state_manager.py:70-82 | with an underscore inside an id, two different departures get the same key |
| Tracking.FindKey | src/state_manager.py:118-122 | the index of the first record carrying the key, or the length when none does |
| Tracking.LookupFirst | src/state_manager.py:118-122 | lookups and the delay flag answer from the first record with the key, whatever later records say |
| Tracking.LookupAbsent | src/state_manager.py:84-122 | a key no record carries is neither alerted nor delay-notified and has no record |
| Tracking.RecordAlertThenAlerted | src/state_manager.py:124-170 | after record_alert the key is alerted, and a second identical call changes nothing |
| Tracking.RecordAlertShape | src/state_manager.py:147-168 | on a known key only its first record is rewritten (alert sent, alert time, original and current time); on a new key exactly one record is appended, with no delay update sent |
| Tracking.RecordAlertMonotone | src/state_manager.py:124-170 | record_alert never withdraws the alert or delay mark of any key |
| Tracking.RecordAlertMarksOnlyItsKey | src/state_manager.py:124-170 | after record_alert a key is alerted iff it was before or is the recorded key; every key's delay mark is as before |
| Tracking.RecordDelayUpdateShape | src/state_manager.py:172-190 | an unknown key changes nothing; otherwise only the first record with the key is marked (delay sent, new current time, stamp) and its original time stays |
| Tracking.RecordDelayUpdateMonotone | src/state_manager.py:172-190 | record_delay_update never withdraws the alert or delay mark of any key |
| Tracking.RecordDelayUpdateMarksOnlyItsKey | src/state_manager.py:172-190 | after record_delay_update no key's alert mark changes, and a key is delay-notified iff it was before or is the updated key with a record |
| Tracking.CleanupKeepsRecent | src/state_manager.py:212-225 | cleanup keeps exactly the records whose original departure is after the cutoff, as often as before, in order and unchanged |
| Tracking.RecordAlertWellFormed | src/state_manager.py:147-168 | record_alert keeps keys distinct and every record consistent with its ids |
| Tracking.RecordDelayUpdateWellFormed | src/state_manager.py:184-190 | record_delay_update keeps the store invariant |
| Tracking.CleanupDistinct | src/state_manager.py:219-224 | cleanup keeps keys distinct |
| Tracking.CleanupWellFormed | src/state_manager.py:212-225 | cleanup keeps the store invariant |
| StateManagement.StateManager.constructor | src/state_manager.py:42-47 | a new store has no last run and no tracked departures, and is well-formed |
| StateManagement.StateManager.Restore | src/state_manager.py:25-40 | a store holding the given state |
| StateManagement.StateManager.UpdateLastRun | src/state_manager.py:57-68 | sets the last run to the given instant and leaves the tracked records alone |
| StateManagement.StateManager.HasAlerted | src/state_manager.py:84-102 | true iff some record with the key has its initial alert sent |
| StateManagement.StateManager.HasSentDelayUpdate | src/state_manager.py:104-122 | true iff the first record with the key has its delay update sent |
| StateManagement.StateManager.GetTrackedDeparture | src/state_manager.py:192-210 | the first record with the key, or None; a returned record is in the store and carries the key |
| StateManagement.StateManager.RecordAlert | src/state_manager.py:124-170 | the new list is the upsert specified by Tracking.WithAlert; the last run is unchanged |
| StateManagement.StateManager.RecordDelayUpdate | src/state_manager.py:172-190 | the new list is the marking specified by Tracking.WithDelayUpdate; the last run is unchanged |
| StateManagement.StateManager.CleanupOldEntries | src/state_manager.py:212-225 | the new list is the old one filtered to records newer than now minus the age limit; the last run is unchanged |
| Schedule.ActiveWindowBounds | main.py:51-92 | active iff the weekday is listed and the minute of day lies between start and end inclusive; the first and last minute are active, the minute before and the minute after are not |
| Schedule.IsActiveTime | main.py:51-92 | an active time is on a listed weekday, and only a window whose start is not after its end is ever active |
| Schedule.WrappingWindowNeverActive | main.py:84-90 | a window whose start is after its end is never active |
| Orchestrator.Step | main.py:175-224 | one departure queues at most one alert or one delay update, never both, and keeps everything queued before; when it queues nothing, the store is unchanged |
| Orchestrator.ProcessDepartures | main.py:174-228 | a route's departures only add to the batches, at most one item per departure |
| Orchestrator.ProcessRoute | main.py:157-172 | a failed fetch changes nothing, a route with no departure on it changes nothing, and the batches only grow |
| Orchestrator.ProcessRoutes | main.py:151-228 | the route loop only adds to the batches |
| Orchestrator.IrrelevantDepartureIgnored | main.py:179-181 | a departure outside the relevance window changes neither the store nor either batch |
| Orchestrator.NewAlertCondition | main.py:183-200 | an alert (with the departure, its instant and its leave time) is queued and recorded exactly when the departure is relevant, due now and its key is not yet alerted; otherwise the alert batch is unchanged and no key becomes alerted in the store |
| Orchestrator.DelayUpdateCondition | main.py:202-224 | a delay update is queued and recorded exactly when the departure is relevant, its key is already alerted with a record, the delay against that record's original time reaches the threshold, and no delay update was sent; the queued update carries the route short name (default the route id), the description (default "Unknown"), the original and new instants, the rounded delay and the key; otherwise the delay batch is unchanged and no key's delay becomes notified in the store |
| Orchestrator.AlertBatchFollowsRecord | main.py:190-200 | recording and queuing an alert for a key alerted neither now nor at the start keeps the alert batch in step with the keys the run marked |
| Orchestrator.DelayBatchSurvivesAlert | main.py:190-200 | recording an alert leaves the delay batch in step with the delay marks |
| Orchestrator.DelayBatchFollowsRecord | main.py:212-224 | recording and queuing a delay update for a tracked key notified neither now nor at the start keeps the delay batch in step with the keys the run marked |
| Orchestrator.AlertBatchSurvivesDelay | main.py:212-224 | recording a delay update leaves the alert batch in step with the alert marks |
| Orchestrator.AlertKeepsInvariant | main.py:190-200 | queuing and recording an alert for a key not yet alerted keeps the run invariant |
| Orchestrator.DelayKeepsInvariant | main.py:212-224 | queuing and recording a delay update for a tracked key with no delay update yet keeps the run invariant |
| Orchestrator.StepKeepsInvariant | main.py:175-224 | one departure's decision keeps the run invariant: marks are never withdrawn, queued keys are distinct and newly marked, every newly marked key is queued, and a well-formed store stays so |
| Orchestrator.DeparturesKeepInvariant | main.py:175-224 | a route's departure loop keeps the run invariant |
| Orchestrator.RoutesKeepInvariant | main.py:151-228 | the route loop keeps the run invariant |
| Orchestrator.RunAlertsOncePerKey | main.py:151-228 | over a whole run, no key gets two alerts or two delay updates, none gets one it already had in the store, every queued key is marked in the final store, every key newly marked in the store was queued (no alert or delay is recorded without being sent), and a well-formed store stays well-formed |
| Orchestrator.UnreadableTimestampEndsRoute | main.py:175-177 | the first departure whose timestamp cannot be read ends its route: the outcome is that of the departures before it |
| Orchestrator.LaterRoutesStillProcessed | main.py:158-160 | a failed fetch leaves everything unchanged, and whatever one route does, the following route is still processed from the state it left |
| Orchestrator.CheckDeparture | main.py:175-224 | the loop body over the store object has exactly the effect of the pure decision `Step` |
| Orchestrator.CheckRouteDepartures | main.py:175-177 | the per-departure loop, stopping at an unreadable timestamp, equals the pure fold over the route's departures |
| Orchestrator.CheckRoutes | main.py:151-228 | the route loop over the store object ends with the store and batches given by the pure fold over all routes |
| Orchestrator.DedupKey | main.py:238 | the key holds the route_id and departure_time fields (None when absent) up to Python equality, with no bool left in it |
| Orchestrator.DedupKeyIsTupleEquality | main.py:236-240 | two alerts share a key exactly when Python finds their (route_id, departure_time) tuples equal, so `(1, t)` and `(True, t)` collide |
| Orchestrator.FirstOccurrencesSpec | main.py:234-242 | the deduplicated batch keeps batch order, no two of its alerts share a key, and every key of the batch still appears |
| Orchestrator.KeptAlertsAreEarliest | main.py:234-242 | every kept alert is the earliest alert of its pair in the batch |
| Orchestrator.EarliestAlertsAreKept | main.py:234-242 | the earliest alert of every pair in the batch is kept |
| Orchestrator.FirstOccurrencesByTupleEquality | main.py:234-242 | no two kept alerts have Python-equal (route_id, departure_time) tuples, and every alert of the batch has a Python-equal tuple among the kept ones |
| Orchestrator.DeduplicateAlerts | main.py:234-242 | the loop with a `seen` set returns the first alert of each pair, with the three properties above |
| Orchestrator.Run | main.py:112-242 | outside the window or while paused, nothing is queued and the store is untouched; otherwise the last run is stamped, records whose original departure is two hours old or more are dropped, the routes are processed and the alert batch is deduplicated |
| Orchestrator.RunOutput | main.py:151-242 | what an active run hands to the notifier: alerts with distinct dedup keys, each for a key not alerted before the run, and delay updates one per key |

## Left out

- Fetching departures over HTTP, the Telegram notifier, message formatting, console output and the pause-file lookup are not modelled. A route's fetch outcome (`Fetched` or `FetchFailed`) and the paused flag are inputs.
- Reading and writing the JSON state file is not modelled. `StateManager.Restore` stands for a successful load, and the empty constructor stands for a missing or unreadable file.
- Clock reads are parameters. The source reads the clock again inside `cleanup_old_entries` and `record_delay_update`; the model passes the run's own instant `now` to both.
- The optional arguments that default to the current time (`update_last_run`, `record_alert`, `should_alert_now`, `is_departure_relevant`, `minutes_until`) always receive the instant explicitly, as every call in the run does.
- Time zones are not modelled. `Schedule.IsActiveTime` takes the local weekday, hour and minute directly.
- Parsing the configured "HH:MM" strings is not modelled. The window carries the hours and minutes as numbers.
- `format_time_local` is display only and is not modelled.
- Instants are whole seconds. A fractional `departure_time` from the feed, float rounding in the minute arithmetic, and ISO-8601 formatting of stored instants are not modelled.
- A JSON value in a departure record is a string, an integer, a boolean or null. Floats, lists and objects are not modelled.
- `MetroApi.ParseDepartureTime`: a non-empty string timestamp and an int outside the years 1 to 9999 are modelled as errors. The model does not distinguish the kinds of exception the conversion raises.
- The `datetime` arithmetic on a departure that has been read (its leave and alert instants) can leave the years 1 to 9999. With a non-negative walking time and advance notice this happens only for departures within those minutes of the start of year 1. Near the end of year 9999 it needs a negative setting. The source then raises inside the per-route `try` and the route ends. The model computes these instants on unbounded integers and does not capture that.
- Loading the configuration is not modelled, nor are missing configuration keys. The settings read before the route loop become the parameters of the run.
- The delay threshold is read inside the per-route `try` each time a tracked, already alerted departure is checked. When the key is missing, the source raises there and the route ends at that departure. The model takes the threshold as a given number and does not capture that.

=== FILE: alert_logic.dfy ===
/** The alert calculator: when to leave, when to alert, whether a departure
    is worth looking at, and how many minutes separate two instants.
    Instants are whole seconds since the Unix epoch; a minute is 60 of them. */
module AlertLogic {

  /** Relevance look-ahead used when the caller gives none. */
  const DefaultMaxWaitMinutes: int := 60

  function Abs(x: int): nat {
    if x < 0 then -x else x
  }

  /** Python's `round(seconds / 60)`: the nearest whole minute, a tie going
      to the even neighbour. */
  function RoundToMinutes(seconds: int): (m: int)
    ensures 2 * Abs(seconds - 60 * m) <= 60
    ensures 2 * Abs(seconds - 60 * m) == 60 ==> m % 2 == 0
  {
    var q := seconds / 60;
    var rem := seconds % 60;
    if rem < 30 then q
    else if rem > 30 then q + 1
    else if q % 2 == 0 then q
    else q + 1
  }

  /** The two properties in RoundToMinutes's contract single out one minute
      count: nothing else is as close, or equally close and even. */
  lemma RoundToMinutesUnique(seconds: int, m: int)
    requires 2 * Abs(seconds - 60 * m) < 60
          || (2 * Abs(seconds - 60 * m) == 60 && m % 2 == 0)
    ensures m == RoundToMinutes(seconds)
  {
    var r := RoundToMinutes(seconds);
    assert -60 <= 60 * m - 60 * r <= 60;
  }

  /** Round-half-to-even is symmetric about zero. */
  lemma RoundToMinutesOdd(seconds: int)
    ensures RoundToMinutes(-seconds) == -RoundToMinutes(seconds)
  {
    var m := RoundToMinutes(seconds);
    assert Abs(-seconds - 60 * (-m)) == Abs(seconds - 60 * m);
    assert m % 2 == 0 <==> (-m) % 2 == 0;
    RoundToMinutesUnique(-seconds, -m);
  }

  /** The configured walking time and advance notice, both in minutes. The
      display time zone is not part of the decision arithmetic. */
  datatype AlertCalculator = AlertCalculator(walkingTimeMinutes: int, advanceNoticeMinutes: int)
  {
    /** When the rider has to set off for the stop. */
    function LeaveTime(departureTime: int): (t: int)
      ensures t + walkingTimeMinutes * 60 == departureTime
      ensures walkingTimeMinutes >= 0 ==> t <= departureTime
    {
      departureTime - walkingTimeMinutes * 60
    }

    /** When the alert should go out. */
    function AlertTime(departureTime: int): (t: int)
      ensures t + advanceNoticeMinutes * 60 == LeaveTime(departureTime)
      ensures t + (walkingTimeMinutes + advanceNoticeMinutes) * 60 == departureTime
    {
      LeaveTime(departureTime) - advanceNoticeMinutes * 60
    }

    /** Whether `now` lies in the closed alert window: the rider has at
        most the advance notice, and not less than nothing, before leaving. */
    predicate ShouldAlertNow(departureTime: int, now: int)
      ensures ShouldAlertNow(departureTime, now) <==>
                0 <= LeaveTime(departureTime) - now <= advanceNoticeMinutes * 60
    {
      AlertTime(departureTime) <= now <= LeaveTime(departureTime)
    }

    /** Whether the alert instant is at most `maxWaitMinutes` ahead and at
        most the advance notice behind `now`. The source compares the
        floating-point minute count; over whole seconds this is the same
        comparison scaled by 60. */
    predicate IsDepartureRelevant(departureTime: int, now: int, maxWaitMinutes: int)
      ensures IsDepartureRelevant(departureTime, now, maxWaitMinutes) <==>
                0 <= LeaveTime(departureTime) - now <= (advanceNoticeMinutes + maxWaitMinutes) * 60
    {
      -advanceNoticeMinutes * 60 <= AlertTime(departureTime) - now <= maxWaitMinutes * 60
    }

    /** Signed whole minutes from `now` until `futureTime`. */
    function MinutesUntil(futureTime: int, now: int): (m: int)
      ensures 2 * Abs(futureTime - now - 60 * m) <= 60
      ensures 2 * Abs(futureTime - now - 60 * m) == 60 ==> m % 2 == 0
    {
      RoundToMinutes(futureTime - now)
    }

    /** Signed whole minutes by which `current` is later than `original`. */
    function CalculateDelay(original: int, current: int): (m: int)
      ensures 2 * Abs(current - original - 60 * m) <= 60
      ensures 2 * Abs(current - original - 60 * m) == 60 ==> m % 2 == 0
    {
      RoundToMinutes(current - original)
    }

    /** Leave time lies exactly the walking time before the departure, the
        alert time exactly the advance notice before that; with settings that
        are not negative the three instants come in order. */
    lemma LeaveAndAlertTimes(departureTime: int)
      ensures departureTime - LeaveTime(departureTime) == walkingTimeMinutes * 60
      ensures LeaveTime(departureTime) - AlertTime(departureTime) == advanceNoticeMinutes * 60
      ensures walkingTimeMinutes >= 0 && advanceNoticeMinutes >= 0 ==>
                AlertTime(departureTime) <= LeaveTime(departureTime) <= departureTime
    {
    }

    /** The alert window, stated against the departure itself, with both
        ends included and the instants just outside excluded. */
    lemma AlertWindow(departureTime: int, now: int)
      ensures ShouldAlertNow(departureTime, now) <==>
                departureTime - (walkingTimeMinutes + advanceNoticeMinutes) * 60 <= now
                && now <= departureTime - walkingTimeMinutes * 60
      ensures advanceNoticeMinutes >= 0 ==>
                ShouldAlertNow(departureTime, AlertTime(departureTime))
                && ShouldAlertNow(departureTime, LeaveTime(departureTime))
      ensures !ShouldAlertNow(departureTime, AlertTime(departureTime) - 1)
      ensures !ShouldAlertNow(departureTime, LeaveTime(departureTime) + 1)
    {
    }

    /** The relevance window, stated against `now`: it opens `maxWaitMinutes`
        before the alert time and closes at the leave time, the same instant
        at which the alert window closes. */
    lemma RelevanceWindow(departureTime: int, now: int, maxWaitMinutes: int)
      ensures IsDepartureRelevant(departureTime, now, maxWaitMinutes) <==>
                AlertTime(departureTime) - maxWaitMinutes * 60 <= now
                && now <= LeaveTime(departureTime)
    {
    }

    /** Every instant in the alert window is relevant. */
    lemma AlertImpliesRelevant(departureTime: int, now: int, maxWaitMinutes: int)
      requires maxWaitMinutes >= 0
      requires ShouldAlertNow(departureTime, now)
      ensures IsDepartureRelevant(departureTime, now, maxWaitMinutes)
    {
    }

    /** The delay is zero for an unchanged prediction, exactly k for a shift
        of k whole minutes, positive exactly when the new prediction is more
        than half a minute later, and negative exactly when it is more than
        half a minute earlier. */
    lemma DelaySign(original: int, current: int, k: int)
      ensures CalculateDelay(original, original) == 0
      ensures CalculateDelay(original, original + 60 * k) == k
      ensures CalculateDelay(original, current) > 0 <==> current - original > 30
      ensures CalculateDelay(original, current) < 0 <==> current - original < -30
    {
      RoundToMinutesUnique(0, 0);
      RoundToMinutesUnique(60 * k, k);
    }

    /** Swapping the two predictions negates the delay. */
    lemma DelayAntisymmetric(original: int, current: int)
      ensures CalculateDelay(original, current) == -CalculateDelay(current, original)
    {
      RoundToMinutesOdd(current - original);
    }

    /** `MinutesUntil` is the delay of the target against `now`, with the same
        rounding, and it changes sign when the two instants are swapped. */
    lemma MinutesUntilIsDelay(futureTime: int, now: int)
      ensures MinutesUntil(futureTime, now) == CalculateDelay(now, futureTime)
      ensures MinutesUntil(futureTime, now) == -MinutesUntil(now, futureTime)
    {
      RoundToMinutesOdd(futureTime - now);
    }
  }
}

=== FILE: metro_api.dfy ===
/** The feed-side helpers of the NexTrip client: departure records as the
    feed delivers them (loose records whose fields may be missing), the
    route/direction filter, and reading a departure's timestamp. Fetching
    over HTTP is not part of this model; a fetch's outcome is an input. */
module MetroApi {
  import opened Wrappers
  import opened Seqs

  /** A JSON scalar as it can appear in a departure record. */
  datatype Scalar = Str(s: string) | Int(i: int) | Bool(b: bool) | Null

  function DigitChar(d: int): char
    requires 0 <= d < 10
  {
    "0123456789"[d]
  }

  function NatToDecimal(n: nat): string
    decreases n
  {
    if n < 10 then [DigitChar(n)] else NatToDecimal(n / 10) + [DigitChar(n % 10)]
  }

  /** Python's `str()` of a scalar. */
  function PyStr(v: Scalar): string {
    match v
    case Str(s) => s
    case Int(i) => if i < 0 then "-" + NatToDecimal(-i) else NatToDecimal(i)
    case Bool(b) => if b then "True" else "False"
    case Null => "None"
  }

  /** Python's truth value of a scalar. */
  predicate Truthy(v: Scalar) {
    match v
    case Str(s) => s != ""
    case Int(i) => i != 0
    case Bool(b) => b
    case Null => false
  }

  /** Python's `==` between two scalars: a bool equals the int it stands
      for (`True == 1`, `False == 0`); values of other different kinds are
      never equal. */
  predicate PyEquals(a: Scalar, b: Scalar) {
    match (a, b)
    case (Str(x), Str(y)) => x == y
    case (Int(x), Int(y)) => x == y
    case (Bool(x), Bool(y)) => x == y
    case (Int(x), Bool(y)) => x == (if y then 1 else 0)
    case (Bool(x), Int(y)) => (if x then 1 else 0) == y
    case (Null, Null) => true
    case _ => false
  }

  /** A representative of a scalar's Python equality class, as a dict key
      hashes it: a bool becomes the int it stands for. */
  function PyKey(v: Scalar): (k: Scalar)
    ensures !k.Bool?
    ensures PyEquals(k, v)
  {
    match v
    case Bool(b) => Int(if b then 1 else 0)
    case _ => v
  }

  /** Two scalars have the same key exactly when Python finds them equal. */
  lemma PyKeyMatchesEquality(a: Scalar, b: Scalar)
    ensures PyKey(a) == PyKey(b) <==> PyEquals(a, b)
  {
  }

  /** A departure record; `None` is a field the record does not carry. */
  datatype Departure = Departure(
    routeId: Option<Scalar>,
    directionId: Option<Scalar>,
    tripId: Option<Scalar>,
    departureTime: Option<Scalar>,
    actual: Option<Scalar>,
    routeShortName: Option<Scalar>,
    description: Option<Scalar>)

  /** `record.get(field, default)`. */
  function Get(field: Option<Scalar>, default: Scalar): Scalar {
    field.GetOr(default)
  }

  predicate RouteMatches(d: Departure, routeId: string) {
    PyStr(Get(d.routeId, Str(""))) == routeId
  }

  predicate DirectionMatches(d: Departure, directionId: string) {
    PyStr(Get(d.directionId, Str(""))) == directionId
  }

  function RouteTest(routeId: string): Departure -> bool {
    d => RouteMatches(d, routeId)
  }

  function DirectionTest(directionId: string): Departure -> bool {
    d => DirectionMatches(d, directionId)
  }

  /** The departures on `routeId`, and in `directionId` when one is given,
      in feed order. */
  function FilterDeparturesByRoute(departures: seq<Departure>, routeId: string,
                                   directionId: Option<string>): (r: seq<Departure>)
    ensures forall d :: d in r <==>
              d in departures && RouteMatches(d, routeId)
              && (directionId.Some? ==> DirectionMatches(d, directionId.value))
    ensures IsSubsequence(r, departures)
  {
    var byRoute := Filter(departures, RouteTest(routeId));
    if directionId.None? then byRoute
    else
      var r := Filter(byRoute, DirectionTest(directionId.value));
      SubsequenceTransitive(r, byRoute, departures);
      r
  }

  /** The filter keeps every record that passes the route test, and the
      direction test when a direction is given, exactly as often as the feed
      lists it, and no other record. */
  lemma RouteFilterExact(departures: seq<Departure>, routeId: string, directionId: Option<string>)
    ensures forall d :: multiset(FilterDeparturesByRoute(departures, routeId, directionId))[d]
              == if RouteMatches(d, routeId) && (directionId.Some? ==> DirectionMatches(d, directionId.value))
                 then multiset(departures)[d] else 0
  {
    FilterCount(departures, RouteTest(routeId));
    if directionId.Some? {
      FilterCount(Filter(departures, RouteTest(routeId)), DirectionTest(directionId.value));
    }
  }

  /** Applying the filter to its own output returns that output. */
  lemma FilterIdempotent(departures: seq<Departure>, routeId: string, directionId: Option<string>)
    ensures var once := FilterDeparturesByRoute(departures, routeId, directionId);
            FilterDeparturesByRoute(once, routeId, directionId) == once
  {
    var once := FilterDeparturesByRoute(departures, routeId, directionId);
    FilterKeepsAll(once, RouteTest(routeId));
    if directionId.Some? {
      FilterKeepsAll(once, DirectionTest(directionId.value));
    }
  }

  datatype TimestampError = MissingDepartureTime | NonNumericDepartureTime | TimestampOutOfRange

  /** The first and last whole second a Python `datetime` can hold in UTC:
      0001-01-01T00:00:00 and 9999-12-31T23:59:59. */
  const MinTimestamp: int := -62135596800
  const MaxTimestamp: int := 253402300799

  /** The departure instant, in seconds since the epoch. A missing or falsy
      timestamp (absent, null, 0, empty, false) is an error; so is a
      non-empty string, which the conversion rejects, and so is a number of
      seconds outside the years 1 to 9999. `true` counts as 1, as Python's
      bool is an int. */
  function ParseDepartureTime(d: Departure): (r: Result<int, TimestampError>)
    ensures r.Success? <==> d.departureTime.Some? && Truthy(d.departureTime.value)
                            && (d.departureTime.value.Int? || d.departureTime.value.Bool?)
                            && (d.departureTime.value.Int? ==>
                                  MinTimestamp <= d.departureTime.value.i <= MaxTimestamp)
    ensures r.Success? ==> r.value != 0 && MinTimestamp <= r.value <= MaxTimestamp
    ensures r.Success? && d.departureTime.value.Int? ==> r.value == d.departureTime.value.i
    ensures r.Success? && d.departureTime.value.Bool? ==> r.value == 1
    ensures r == Failure(MissingDepartureTime) <==>
              d.departureTime.None? || !Truthy(d.departureTime.value)
    ensures r == Failure(TimestampOutOfRange) <==>
              d.departureTime.Some? && d.departureTime.value.Int?
              && !(MinTimestamp <= d.departureTime.value.i <= MaxTimestamp)
  {
    var timestamp := Get(d.departureTime, Null);
    if !Truthy(timestamp) then Failure(MissingDepartureTime)
    else match timestamp
      case Int(i) => if MinTimestamp <= i <= MaxTimestamp then Success(i) else Failure(TimestampOutOfRange)
      case Bool(_) => Success(1)
      case _ => Failure(NonNumericDepartureTime)
  }

  /** Whether the prediction is real-time: the `actual` field, `False` when
      the record does not carry it. */
  function IsRealTime(d: Departure): (r: Scalar)
    ensures d.actual.None? ==> r == Bool(false)
    ensures d.actual.Some? ==> r == d.actual.value
  {
    Get(d.actual, Bool(false))
  }
}

=== FILE: orchestrator.dfy ===
/** One polling run: each configured route's departures go through the
    alert calculator and the tracking store, producing a batch of new alerts
    and a batch of delay updates; the alert batch is then deduplicated.
    Fetching, sending and printing are outside the model: a route's fetch
    outcome is an input, and the two batches are the output. */
module Orchestrator {
  import opened Wrappers
  import opened Seqs
  import opened AlertLogic
  import opened MetroApi
  import opened Tracking
  import opened StateManagement
  import opened Schedule

  /** One entry of the configured routes; ids are stringified on use. */
  datatype RouteConfig = RouteConfig(routeId: Scalar, stopId: Scalar, description: Scalar)

  /** What fetching a route's stop produced. */
  datatype Feed = Fetched(departures: seq<Departure>) | FetchFailed

  datatype RouteInput = RouteInput(config: RouteConfig, feed: Feed)

  /** A departure queued for the alert message, with its computed departure
      and leave instants and the store key it was recorded under. */
  datatype Alert = Alert(departure: Departure, departureDatetime: int, leaveDatetime: int, key: string)

  /** A queued delay notice, with the store key it was recorded under. */
  datatype DelayUpdate = DelayUpdate(
    route: Scalar, description: Scalar,
    originalTime: int, newTime: int, delayMinutes: int, key: string)

  /** The run's fixed inputs: the calculator, the delay threshold in minutes
      and the run instant. */
  datatype RunConfig = RunConfig(calculator: AlertCalculator, delayThresholdMinutes: int, now: int)

  /** The store's records and the two batches built so far. */
  datatype RunState = RunState(tracked: seq<TrackedDeparture>, alerts: seq<Alert>, delays: seq<DelayUpdate>)

  /** Age in hours past which tracked records are dropped at the start of a run. */
  const MaxAgeHours: int := 2

  function TripId(d: Departure): string {
    PyStr(Get(d.tripId, Str("")))
  }

  /** The decision for one departure whose instant `t` was read
      successfully. It queues at most one alert or one delay update, never
      both, and never drops what was queued before. */
  function Step(env: RunConfig, routeId: string, stopId: string, st: RunState,
                d: Departure, t: int): (r: RunState)
    ensures st.alerts <= r.alerts && |r.alerts| <= |st.alerts| + 1
    ensures st.delays <= r.delays && |r.delays| <= |st.delays| + 1
    ensures |r.alerts| == |st.alerts| || |r.delays| == |st.delays|
    ensures r.alerts == st.alerts && r.delays == st.delays ==> r.tracked == st.tracked
  {
    var tripId := TripId(d);
    var key := DepartureKey(routeId, tripId, stopId);
    if !env.calculator.IsDepartureRelevant(t, env.now, DefaultMaxWaitMinutes) then st
    else if env.calculator.ShouldAlertNow(t, env.now) && !Alerted(st.tracked, key) then
      RunState(WithAlert(st.tracked, routeId, tripId, stopId, t, env.now),
               st.alerts + [Alert(d, t, env.calculator.LeaveTime(t), key)],
               st.delays)
    else if Alerted(st.tracked, key) then
      match Lookup(st.tracked, key)
      case None => st
      case Some(rec) =>
        var delay := env.calculator.CalculateDelay(rec.originalDepartureTime, t);
        if delay >= env.delayThresholdMinutes && !DelayNotified(st.tracked, key) then
          RunState(WithDelayUpdate(st.tracked, key, t, env.now),
                   st.alerts,
                   st.delays + [DelayUpdate(Get(d.routeShortName, Str(routeId)),
                                            Get(d.description, Str("Unknown")),
                                            rec.originalDepartureTime, t, delay, key)])
        else st
    else st
  }

  /** A route's departures in order; the first one whose timestamp cannot be
      read ends the route, keeping what the earlier ones did. */
  function ProcessDepartures(env: RunConfig, routeId: string, stopId: string, st: RunState,
                             ds: seq<Departure>): (r: RunState)
    ensures st.alerts <= r.alerts && st.delays <= r.delays
    ensures |r.alerts| + |r.delays| <= |st.alerts| + |st.delays| + |ds|
    decreases |ds|
  {
    if ds == [] then st
    else match ParseDepartureTime(ds[0])
      case Failure(_) => st
      case Success(t) => ProcessDepartures(env, routeId, stopId, Step(env, routeId, stopId, st, ds[0], t), ds[1..])
  }

  /** One route: nothing when the fetch failed, otherwise its filtered
      departures; a route with no departure on it changes nothing. */
  function ProcessRoute(env: RunConfig, st: RunState, r: RouteInput): (st': RunState)
    ensures r.feed.FetchFailed? ==> st' == st
    ensures r.feed.Fetched? && FilterDeparturesByRoute(r.feed.departures, PyStr(r.config.routeId), None) == []
            ==> st' == st
    ensures st.alerts <= st'.alerts && st.delays <= st'.delays
  {
    match r.feed
    case FetchFailed => st
    case Fetched(all) =>
      var routeId := PyStr(r.config.routeId);
      ProcessDepartures(env, routeId, PyStr(r.config.stopId), st,
                        FilterDeparturesByRoute(all, routeId, None))
  }

  /** The routes in configured order, each from the state the previous one
      left; batches only ever grow. */
  function ProcessRoutes(env: RunConfig, st: RunState, routes: seq<RouteInput>): (r: RunState)
    ensures st.alerts <= r.alerts && st.delays <= r.delays
    decreases |routes|
  {
    if routes == [] then st
    else ProcessRoutes(env, ProcessRoute(env, st, routes[0]), routes[1..])
  }

  /** The route loop of a run, from the store's records and empty batches. */
  function RouteLoop(env: RunConfig, tracked: seq<TrackedDeparture>, routes: seq<RouteInput>): RunState {
    ProcessRoutes(env, RunState(tracked, [], []), routes)
  }

  // ----- One departure -----

  /** A departure outside the relevance window changes neither the store
      nor either batch. */
  lemma IrrelevantDepartureIgnored(env: RunConfig, routeId: string, stopId: string, st: RunState,
                                   d: Departure, t: int)
    requires !env.calculator.IsDepartureRelevant(t, env.now, DefaultMaxWaitMinutes)
    ensures Step(env, routeId, stopId, st, d, t) == st
  {
  }

  /** A departure is queued as a new alert, and recorded, exactly when it is
      relevant, due now and its key is not yet alerted; otherwise the alert
      batch is unchanged and no key becomes alerted. */
  lemma NewAlertCondition(env: RunConfig, routeId: string, stopId: string, st: RunState,
                          d: Departure, t: int)
    ensures var st' := Step(env, routeId, stopId, st, d, t);
            var key := DepartureKey(routeId, TripId(d), stopId);
            var queued := env.calculator.IsDepartureRelevant(t, env.now, DefaultMaxWaitMinutes)
                          && env.calculator.ShouldAlertNow(t, env.now) && !Alerted(st.tracked, key);
            && (queued ==>
                  && st'.alerts == st.alerts + [Alert(d, t, env.calculator.LeaveTime(t), key)]
                  && st'.tracked == WithAlert(st.tracked, routeId, TripId(d), stopId, t, env.now)
                  && st'.delays == st.delays)
            && (!queued ==>
                  && st'.alerts == st.alerts
                  && (forall k :: Alerted(st'.tracked, k) <==> Alerted(st.tracked, k)))
  {
    var st' := Step(env, routeId, stopId, st, d, t);
    var key := DepartureKey(routeId, TripId(d), stopId);
    if env.calculator.IsDepartureRelevant(t, env.now, DefaultMaxWaitMinutes)
       && !(env.calculator.ShouldAlertNow(t, env.now) && !Alerted(st.tracked, key))
       && st'.tracked != st.tracked
    {
      forall k ensures Alerted(st'.tracked, k) <==> Alerted(st.tracked, k) {
        RecordDelayUpdateMarksOnlyItsKey(st.tracked, key, t, env.now, k);
      }
    }
  }

  /** A delay update is queued, and recorded, exactly when the departure is
      relevant, its key already alerted, a record for it exists, the delay
      against that record's original time reaches the threshold, and no
      delay update was sent for the key; otherwise the delay batch is
      unchanged and no key's delay becomes notified. */
  lemma DelayUpdateCondition(env: RunConfig, routeId: string, stopId: string, st: RunState,
                             d: Departure, t: int)
    ensures var st' := Step(env, routeId, stopId, st, d, t);
            var key := DepartureKey(routeId, TripId(d), stopId);
            var rec := Lookup(st.tracked, key);
            var queued := env.calculator.IsDepartureRelevant(t, env.now, DefaultMaxWaitMinutes)
                          && Alerted(st.tracked, key) && rec.Some?
                          && env.calculator.CalculateDelay(rec.value.originalDepartureTime, t)
                               >= env.delayThresholdMinutes
                          && !DelayNotified(st.tracked, key);
            && (queued ==>
                  && st'.delays == st.delays + [DelayUpdate(
                       Get(d.routeShortName, Str(routeId)), Get(d.description, Str("Unknown")),
                       rec.value.originalDepartureTime, t,
                       env.calculator.CalculateDelay(rec.value.originalDepartureTime, t), key)]
                  && st'.tracked == WithDelayUpdate(st.tracked, key, t, env.now)
                  && st'.alerts == st.alerts)
            && (!queued ==>
                  && st'.delays == st.delays
                  && (forall k :: DelayNotified(st'.tracked, k) <==> DelayNotified(st.tracked, k)))
  {
    var st' := Step(env, routeId, stopId, st, d, t);
    var key := DepartureKey(routeId, TripId(d), stopId);
    if env.calculator.IsDepartureRelevant(t, env.now, DefaultMaxWaitMinutes)
       && env.calculator.ShouldAlertNow(t, env.now) && !Alerted(st.tracked, key)
    {
      forall k ensures DelayNotified(st'.tracked, k) <==> DelayNotified(st.tracked, k) {
        RecordAlertMarksOnlyItsKey(st.tracked, routeId, TripId(d), stopId, t, env.now, k);
      }
    }
  }

  // ----- A whole run -----

  /** The alert batch against the store: every queued alert's key is
      alerted in `tracked` and was not in `init`, no two queued alerts share
      a key, and every key alerted in `tracked` but not in `init` has a
      queued alert. */
  ghost predicate AlertsMatchMarks(init: seq<TrackedDeparture>, tracked: seq<TrackedDeparture>,
                                   alerts: seq<Alert>)
  {
    && (forall i :: 0 <= i < |alerts| ==> Alerted(tracked, alerts[i].key) && !Alerted(init, alerts[i].key))
    && (forall i, j :: 0 <= i < j < |alerts| ==> alerts[i].key != alerts[j].key)
    && (forall k :: Alerted(tracked, k) && !Alerted(init, k) ==>
          exists i :: 0 <= i < |alerts| && alerts[i].key == k)
  }

  /** The same for the delay batch and delay-notified keys. */
  ghost predicate DelaysMatchMarks(init: seq<TrackedDeparture>, tracked: seq<TrackedDeparture>,
                                   delays: seq<DelayUpdate>)
  {
    && (forall i :: 0 <= i < |delays| ==>
          DelayNotified(tracked, delays[i].key) && !DelayNotified(init, delays[i].key))
    && (forall i, j :: 0 <= i < j < |delays| ==> delays[i].key != delays[j].key)
    && (forall k :: DelayNotified(tracked, k) && !DelayNotified(init, k) ==>
          exists i :: 0 <= i < |delays| && delays[i].key == k)
  }

  /** What holds of every state a run passes through, relative to the
      store `init` it started from: alerted and delay-notified keys stay so;
      both batches match the marks the run added; a well-formed store stays
      well-formed. */
  ghost predicate RunInvariant(init: seq<TrackedDeparture>, st: RunState) {
    && (forall k :: Alerted(init, k) ==> Alerted(st.tracked, k))
    && (forall k :: DelayNotified(init, k) ==> DelayNotified(st.tracked, k))
    && AlertsMatchMarks(init, st.tracked, st.alerts)
    && DelaysMatchMarks(init, st.tracked, st.delays)
    && (WellFormed(init) ==> WellFormed(st.tracked))
  }

  /** Recording an alert for a key not alerted before, and queuing it,
      keeps the alert batch matched to the marks. */
  lemma AlertBatchFollowsRecord(init: seq<TrackedDeparture>, tracked: seq<TrackedDeparture>,
                                alerts: seq<Alert>, routeId: string, tripId: string, stopId: string,
                                t: int, now: int, a: Alert)
    requires AlertsMatchMarks(init, tracked, alerts)
    requires a.key == DepartureKey(routeId, tripId, stopId)
    requires !Alerted(tracked, a.key) && !Alerted(init, a.key)
    ensures AlertsMatchMarks(init, WithAlert(tracked, routeId, tripId, stopId, t, now), alerts + [a])
  {
    var s' := WithAlert(tracked, routeId, tripId, stopId, t, now);
    var alerts' := alerts + [a];
    forall k ensures Alerted(s', k) <==> Alerted(tracked, k) || k == a.key {
      RecordAlertMarksOnlyItsKey(tracked, routeId, tripId, stopId, t, now, k);
    }
    forall k | Alerted(s', k) && !Alerted(init, k)
      ensures exists i :: 0 <= i < |alerts'| && alerts'[i].key == k
    {
      if k == a.key {
        assert alerts'[|alerts|].key == k;
      } else {
        var i :| 0 <= i < |alerts| && alerts[i].key == k;
        assert alerts'[i].key == k;
      }
    }
  }

  /** Recording an alert leaves the delay batch matched to the marks. */
  lemma DelayBatchSurvivesAlert(init: seq<TrackedDeparture>, tracked: seq<TrackedDeparture>,
                                delays: seq<DelayUpdate>, routeId: string, tripId: string,
                                stopId: string, t: int, now: int)
    requires DelaysMatchMarks(init, tracked, delays)
    ensures DelaysMatchMarks(init, WithAlert(tracked, routeId, tripId, stopId, t, now), delays)
  {
    forall k ensures DelayNotified(WithAlert(tracked, routeId, tripId, stopId, t, now), k)
                     <==> DelayNotified(tracked, k) {
      RecordAlertMarksOnlyItsKey(tracked, routeId, tripId, stopId, t, now, k);
    }
  }

  /** Recording a delay update for a key with a record and no delay update
      before, and queuing it, keeps the delay batch matched to the marks. */
  lemma DelayBatchFollowsRecord(init: seq<TrackedDeparture>, tracked: seq<TrackedDeparture>,
                                delays: seq<DelayUpdate>, key: string, t: int, now: int,
                                u: DelayUpdate)
    requires DelaysMatchMarks(init, tracked, delays)
    requires u.key == key && Lookup(tracked, key).Some?
    requires !DelayNotified(tracked, key) && !DelayNotified(init, key)
    ensures DelaysMatchMarks(init, WithDelayUpdate(tracked, key, t, now), delays + [u])
  {
    var s' := WithDelayUpdate(tracked, key, t, now);
    var delays' := delays + [u];
    forall k ensures DelayNotified(s', k) <==> DelayNotified(tracked, k) || k == key {
      RecordDelayUpdateMarksOnlyItsKey(tracked, key, t, now, k);
    }
    forall k | DelayNotified(s', k) && !DelayNotified(init, k)
      ensures exists i :: 0 <= i < |delays'| && delays'[i].key == k
    {
      if k == key {
        assert delays'[|delays|].key == k;
      } else {
        var i :| 0 <= i < |delays| && delays[i].key == k;
        assert delays'[i].key == k;
      }
    }
  }

  /** Recording a delay update leaves the alert batch matched to the marks. */
  lemma AlertBatchSurvivesDelay(init: seq<TrackedDeparture>, tracked: seq<TrackedDeparture>,
                                alerts: seq<Alert>, key: string, t: int, now: int)
    requires AlertsMatchMarks(init, tracked, alerts)
    ensures AlertsMatchMarks(init, WithDelayUpdate(tracked, key, t, now), alerts)
  {
    forall k ensures Alerted(WithDelayUpdate(tracked, key, t, now), k) <==> Alerted(tracked, k) {
      RecordDelayUpdateMarksOnlyItsKey(tracked, key, t, now, k);
    }
  }

  /** Queuing an alert for a key not yet alerted, and recording it, keeps
      the run invariant. */
  lemma AlertKeepsInvariant(init: seq<TrackedDeparture>, st: RunState, routeId: string, tripId: string,
                            stopId: string, t: int, now: int, a: Alert)
    requires RunInvariant(init, st)
    requires a.key == DepartureKey(routeId, tripId, stopId) && !Alerted(st.tracked, a.key)
    ensures RunInvariant(init, RunState(WithAlert(st.tracked, routeId, tripId, stopId, t, now),
                                        st.alerts + [a], st.delays))
  {
    var s' := WithAlert(st.tracked, routeId, tripId, stopId, t, now);
    forall k
      ensures Alerted(st.tracked, k) ==> Alerted(s', k)
      ensures DelayNotified(st.tracked, k) ==> DelayNotified(s', k)
    {
      RecordAlertMonotone(st.tracked, routeId, tripId, stopId, t, now, k);
    }
    AlertBatchFollowsRecord(init, st.tracked, st.alerts, routeId, tripId, stopId, t, now, a);
    DelayBatchSurvivesAlert(init, st.tracked, st.delays, routeId, tripId, stopId, t, now);
    if WellFormed(init) {
      RecordAlertWellFormed(st.tracked, routeId, tripId, stopId, t, now);
    }
  }

  /** Queuing a delay update for a key with a record and no delay update
      yet, and recording it, keeps the run invariant. */
  lemma DelayKeepsInvariant(init: seq<TrackedDeparture>, st: RunState, key: string, t: int, now: int,
                            u: DelayUpdate)
    requires RunInvariant(init, st)
    requires u.key == key && Lookup(st.tracked, key).Some? && !DelayNotified(st.tracked, key)
    ensures RunInvariant(init, RunState(WithDelayUpdate(st.tracked, key, t, now),
                                        st.alerts, st.delays + [u]))
  {
    var s' := WithDelayUpdate(st.tracked, key, t, now);
    forall k
      ensures Alerted(st.tracked, k) ==> Alerted(s', k)
      ensures DelayNotified(st.tracked, k) ==> DelayNotified(s', k)
    {
      RecordDelayUpdateMonotone(st.tracked, key, t, now, k);
    }
    DelayBatchFollowsRecord(init, st.tracked, st.delays, key, t, now, u);
    AlertBatchSurvivesDelay(init, st.tracked, st.alerts, key, t, now);
    if WellFormed(init) {
      RecordDelayUpdateWellFormed(st.tracked, key, t, now);
    }
  }

  lemma StepKeepsInvariant(env: RunConfig, routeId: string, stopId: string,
                           init: seq<TrackedDeparture>, st: RunState, d: Departure, t: int)
    requires RunInvariant(init, st)
    ensures RunInvariant(init, Step(env, routeId, stopId, st, d, t))
  {
    var tripId := TripId(d);
    var key := DepartureKey(routeId, tripId, stopId);
    if !env.calculator.IsDepartureRelevant(t, env.now, DefaultMaxWaitMinutes) {
    } else if env.calculator.ShouldAlertNow(t, env.now) && !Alerted(st.tracked, key) {
      AlertKeepsInvariant(init, st, routeId, tripId, stopId, t, env.now,
                          Alert(d, t, env.calculator.LeaveTime(t), key));
    } else if Alerted(st.tracked, key) && Lookup(st.tracked, key).Some? {
      var rec := Lookup(st.tracked, key).value;
      var delay := env.calculator.CalculateDelay(rec.originalDepartureTime, t);
      if delay >= env.delayThresholdMinutes && !DelayNotified(st.tracked, key) {
        DelayKeepsInvariant(init, st, key, t, env.now,
                            DelayUpdate(Get(d.routeShortName, Str(routeId)), Get(d.description, Str("Unknown")),
                                        rec.originalDepartureTime, t, delay, key));
      }
    }
  }

  lemma {:induction false} DeparturesKeepInvariant(env: RunConfig, routeId: string, stopId: string,
                                                   init: seq<TrackedDeparture>, st: RunState,
                                                   ds: seq<Departure>)
    requires RunInvariant(init, st)
    ensures RunInvariant(init, ProcessDepartures(env, routeId, stopId, st, ds))
    decreases |ds|
  {
    if ds != [] {
      match ParseDepartureTime(ds[0])
      case Failure(_) =>
      case Success(t) =>
        StepKeepsInvariant(env, routeId, stopId, init, st, ds[0], t);
        DeparturesKeepInvariant(env, routeId, stopId, init, Step(env, routeId, stopId, st, ds[0], t), ds[1..]);
    }
  }

  lemma {:induction false} RoutesKeepInvariant(env: RunConfig, init: seq<TrackedDeparture>,
                                               st: RunState, routes: seq<RouteInput>)
    requires RunInvariant(init, st)
    ensures RunInvariant(init, ProcessRoutes(env, st, routes))
    decreases |routes|
  {
    if routes != [] {
      var r := routes[0];
      if r.feed.Fetched? {
        var routeId := PyStr(r.config.routeId);
        DeparturesKeepInvariant(env, routeId, PyStr(r.config.stopId), init, st,
                                FilterDeparturesByRoute(r.feed.departures, routeId, None));
      }
      RoutesKeepInvariant(env, init, ProcessRoute(env, st, r), routes[1..]);
    }
  }

  /** Over a whole run: no key is alerted twice, no key already alerted in
      the store is alerted again, every alerted key is recorded, and every
      key the run records as alerted was queued; at most one delay update is
      queued per key, none for a key already notified, each is recorded, and
      every key the run records as notified was queued; a well-formed store
      stays well-formed. */
  lemma RunAlertsOncePerKey(env: RunConfig, init: seq<TrackedDeparture>, routes: seq<RouteInput>)
    ensures var final := RouteLoop(env, init, routes);
            && (forall i, j :: 0 <= i < j < |final.alerts| ==> final.alerts[i].key != final.alerts[j].key)
            && (forall i :: 0 <= i < |final.alerts| ==>
                  !Alerted(init, final.alerts[i].key) && Alerted(final.tracked, final.alerts[i].key))
            && (forall i, j :: 0 <= i < j < |final.delays| ==> final.delays[i].key != final.delays[j].key)
            && (forall i :: 0 <= i < |final.delays| ==>
                  !DelayNotified(init, final.delays[i].key) && DelayNotified(final.tracked, final.delays[i].key))
            && (forall k :: Alerted(final.tracked, k) && !Alerted(init, k) ==>
                  exists i :: 0 <= i < |final.alerts| && final.alerts[i].key == k)
            && (forall k :: DelayNotified(final.tracked, k) && !DelayNotified(init, k) ==>
                  exists i :: 0 <= i < |final.delays| && final.delays[i].key == k)
            && (WellFormed(init) ==> WellFormed(final.tracked))
  {
    RoutesKeepInvariant(env, init, RunState(init, [], []), routes);
  }

  // ----- Failures within a route -----

  /** A departure whose timestamp cannot be read ends its route: the result
      is what the departures before it produced, and the ones after it are
      never looked at. */
  lemma {:induction false} UnreadableTimestampEndsRoute(env: RunConfig, routeId: string, stopId: string,
                                                        st: RunState, ds: seq<Departure>, j: nat)
    requires j < |ds| && ParseDepartureTime(ds[j]).Failure?
    ensures ProcessDepartures(env, routeId, stopId, st, ds)
            == ProcessDepartures(env, routeId, stopId, st, ds[..j])
    decreases j
  {
    if j > 0 {
      assert ds[..j][0] == ds[0];
      match ParseDepartureTime(ds[0])
      case Failure(_) =>
      case Success(t) =>
        assert ds[..j][1..] == ds[1..][..j - 1];
        UnreadableTimestampEndsRoute(env, routeId, stopId, Step(env, routeId, stopId, st, ds[0], t),
                                     ds[1..], j - 1);
    }
  }

  /** A failed fetch leaves everything as it was, and whatever a route does,
      the routes after it are still processed from the state it left. */
  lemma {:induction false} LaterRoutesStillProcessed(env: RunConfig, st: RunState,
                                                     routes: seq<RouteInput>, r: RouteInput)
    ensures ProcessRoute(env, st, RouteInput(r.config, FetchFailed)) == st
    ensures ProcessRoutes(env, st, routes + [r]) == ProcessRoute(env, ProcessRoutes(env, st, routes), r)
    decreases |routes|
  {
    if routes == [] {
      assert routes + [r] == [r];
    } else {
      assert (routes + [r])[1..] == routes[1..] + [r];
      LaterRoutesStillProcessed(env, ProcessRoute(env, st, routes[0]), routes[1..], r);
    }
  }

  // ----- The loop itself -----

  /** The body of the per-departure loop, for a departure whose instant was
      read: check relevance, then alert or check for a delay, against the
      store in place. */
  method CheckDeparture(store: StateManager, env: RunConfig, routeId: string, stopId: string,
                        departure: Departure, departureTime: int,
                        alerts: seq<Alert>, delays: seq<DelayUpdate>)
    returns (alerts': seq<Alert>, delays': seq<DelayUpdate>)
    modifies store`trackedDepartures
    ensures RunState(store.trackedDepartures, alerts', delays')
            == Step(env, routeId, stopId, RunState(old(store.trackedDepartures), alerts, delays),
                    departure, departureTime)
  {
    alerts', delays' := alerts, delays;
    var tripId := TripId(departure);
    if !env.calculator.IsDepartureRelevant(departureTime, env.now, DefaultMaxWaitMinutes) {
      return;
    }
    var leaveTime := env.calculator.LeaveTime(departureTime);
    var shouldAlert := env.calculator.ShouldAlertNow(departureTime, env.now);
    var alreadyAlerted := store.HasAlerted(routeId, tripId, stopId);
    if shouldAlert && !alreadyAlerted {
      alerts' := alerts + [Alert(departure, departureTime, leaveTime, DepartureKey(routeId, tripId, stopId))];
      store.RecordAlert(routeId, tripId, stopId, departureTime, env.now);
    } else if alreadyAlerted {
      var tracked := store.GetTrackedDeparture(routeId, tripId, stopId);
      if tracked.Some? {
        var originalTime := tracked.value.originalDepartureTime;
        var delayMinutes := env.calculator.CalculateDelay(originalTime, departureTime);
        if delayMinutes >= env.delayThresholdMinutes {
          var notified := store.HasSentDelayUpdate(routeId, tripId, stopId);
          if !notified {
            delays' := delays + [DelayUpdate(Get(departure.routeShortName, Str(routeId)),
                                             Get(departure.description, Str("Unknown")),
                                             originalTime, departureTime, delayMinutes,
                                             DepartureKey(routeId, tripId, stopId))];
            store.RecordDelayUpdate(routeId, tripId, stopId, departureTime, env.now);
          }
        }
      }
    }
  }

  /** The per-departure loop of one route; a departure whose timestamp
      cannot be read ends it. */
  method CheckRouteDepartures(store: StateManager, env: RunConfig, routeId: string, stopId: string,
                              routeDepartures: seq<Departure>,
                              alerts: seq<Alert>, delays: seq<DelayUpdate>)
    returns (alerts': seq<Alert>, delays': seq<DelayUpdate>)
    modifies store`trackedDepartures
    ensures RunState(store.trackedDepartures, alerts', delays')
            == ProcessDepartures(env, routeId, stopId, RunState(old(store.trackedDepartures), alerts, delays),
                                 routeDepartures)
  {
    alerts', delays' := alerts, delays;
    var j := 0;
    while j < |routeDepartures|
      invariant 0 <= j <= |routeDepartures|
      invariant ProcessDepartures(env, routeId, stopId, RunState(store.trackedDepartures, alerts', delays'),
                                  routeDepartures[j..])
                == ProcessDepartures(env, routeId, stopId, RunState(old(store.trackedDepartures), alerts, delays),
                                     routeDepartures)
    {
      var departure := routeDepartures[j];
      var parsed := ParseDepartureTime(departure);
      if parsed.Failure? {
        break;
      }
      assert routeDepartures[j..][1..] == routeDepartures[j + 1..];
      alerts', delays' := CheckDeparture(store, env, routeId, stopId, departure, parsed.value, alerts', delays');
      j := j + 1;
    }
  }

  /** The route loop of a run, over the store in place. */
  method CheckRoutes(store: StateManager, env: RunConfig, routes: seq<RouteInput>)
    returns (alerts: seq<Alert>, delays: seq<DelayUpdate>)
    modifies store`trackedDepartures
    ensures RunState(store.trackedDepartures, alerts, delays)
            == RouteLoop(env, old(store.trackedDepartures), routes)
  {
    alerts, delays := [], [];
    var i := 0;
    while i < |routes|
      invariant 0 <= i <= |routes|
      invariant ProcessRoutes(env, RunState(store.trackedDepartures, alerts, delays), routes[i..])
                == ProcessRoutes(env, RunState(old(store.trackedDepartures), [], []), routes)
    {
      var route := routes[i];
      assert routes[i..][1..] == routes[i + 1..];
      if route.feed.Fetched? {
        var routeId := PyStr(route.config.routeId);
        var routeDepartures := FilterDeparturesByRoute(route.feed.departures, routeId, None);
        if |routeDepartures| > 0 {
          alerts, delays := CheckRouteDepartures(store, env, routeId, PyStr(route.config.stopId),
                                                 routeDepartures, alerts, delays);
        }
      }
      i := i + 1;
    }
  }

  // ----- Deduplication of the alert batch -----

  /** The `route_id` and `departure_time` fields as a dict key sees them: a
      missing field reads as null, as `dict.get` returns None, and a bool
      stands for the int it equals. */
  function DedupKey(a: Alert): (k: (Scalar, Scalar))
    ensures !k.0.Bool? && !k.1.Bool?
    ensures PyEquals(k.0, Get(a.departure.routeId, Null))
    ensures PyEquals(k.1, Get(a.departure.departureTime, Null))
  {
    (PyKey(Get(a.departure.routeId, Null)), PyKey(Get(a.departure.departureTime, Null)))
  }

  /** Python finds the two `(route_id, departure_time)` tuples equal. */
  predicate SameRouteAndTime(a: Alert, b: Alert) {
    && PyEquals(Get(a.departure.routeId, Null), Get(b.departure.routeId, Null))
    && PyEquals(Get(a.departure.departureTime, Null), Get(b.departure.departureTime, Null))
  }

  /** Two alerts share a dedup key exactly when their tuples are equal in
      Python, so `(1, t)` and `(True, t)` collide and `("1", t)` does not. */
  lemma DedupKeyIsTupleEquality(a: Alert, b: Alert)
    ensures DedupKey(a) == DedupKey(b) <==> SameRouteAndTime(a, b)
  {
    PyKeyMatchesEquality(Get(a.departure.routeId, Null), Get(b.departure.routeId, Null));
    PyKeyMatchesEquality(Get(a.departure.departureTime, Null), Get(b.departure.departureTime, Null));
  }

  function KeysOf(s: seq<Alert>): set<(Scalar, Scalar)> {
    set a | a in s :: DedupKey(a)
  }

  /** Each alert whose pair has not occurred earlier in `s`, in order. */
  function FirstOccurrences(s: seq<Alert>): seq<Alert>
    decreases |s|
  {
    if s == [] then []
    else
      var init := s[..|s| - 1];
      FirstOccurrences(init) + (if DedupKey(s[|s| - 1]) in KeysOf(init) then [] else [s[|s| - 1]])
  }

  lemma KeysOfAppend(s: seq<Alert>, x: Alert)
    ensures KeysOf(s + [x]) == KeysOf(s) + {DedupKey(x)}
  {
    assert forall a :: a in s + [x] <==> a in s || a == x;
  }

  /** The first occurrences are an order-preserving selection of the batch,
      no two share a pair, and every pair of the batch is among them. */
  lemma {:induction false} FirstOccurrencesSpec(s: seq<Alert>)
    ensures var r := FirstOccurrences(s);
            && IsSubsequence(r, s)
            && (forall i, j :: 0 <= i < j < |r| ==> DedupKey(r[i]) != DedupKey(r[j]))
            && KeysOf(r) == KeysOf(s)
    decreases |s|
  {
    if s == [] {
      assert IsSubsequence<Alert>([], []);
    } else {
      var init := s[..|s| - 1];
      var last := s[|s| - 1];
      var r0 := FirstOccurrences(init);
      FirstOccurrencesSpec(init);
      assert s == init + [last];
      SubsequenceAppend(r0, init, last);
      KeysOfAppend(init, last);
      if DedupKey(last) in KeysOf(init) {
        assert FirstOccurrences(s) == r0;
      } else {
        assert FirstOccurrences(s) == r0 + [last];
        KeysOfAppend(r0, last);
        NewKeyStaysDistinct(r0, last);
      }
    }
  }

  /** No alert before position `j` of the batch shares the key of the
      alert at `j`. */
  predicate EarliestOfKey(s: seq<Alert>, j: int)
    requires 0 <= j < |s|
  {
    forall j' :: 0 <= j' < j ==> DedupKey(s[j']) != DedupKey(s[j])
  }

  /** Every kept alert is the earliest alert of its pair in the batch. */
  lemma {:induction false} KeptAlertsAreEarliest(s: seq<Alert>)
    ensures forall x :: x in FirstOccurrences(s) ==>
              exists j :: 0 <= j < |s| && s[j] == x && EarliestOfKey(s, j)
    decreases |s|
  {
    if s != [] {
      var init := s[..|s| - 1];
      var last := s[|s| - 1];
      var r0 := FirstOccurrences(init);
      KeptAlertsAreEarliest(init);
      assert s == init + [last];
      if DedupKey(last) in KeysOf(init) {
        assert FirstOccurrences(s) == r0;
      } else {
        assert FirstOccurrences(s) == r0 + [last];
      }
      forall x | x in FirstOccurrences(s)
        ensures exists j :: 0 <= j < |s| && s[j] == x && EarliestOfKey(s, j)
      {
        if x in r0 {
          var j :| 0 <= j < |init| && init[j] == x && EarliestOfKey(init, j);
          assert s[j] == x;
          forall j' | 0 <= j' < j ensures DedupKey(s[j']) != DedupKey(s[j]) {
            assert s[j'] == init[j'];
          }
        } else {
          forall j' | 0 <= j' < |s| - 1 ensures DedupKey(s[j']) != DedupKey(s[|s| - 1]) {
            assert s[j'] == init[j'] && init[j'] in init;
          }
          assert EarliestOfKey(s, |s| - 1);
        }
      }
    }
  }

  /** The earliest alert of each pair in the batch is kept. */
  lemma {:induction false} EarliestAlertsAreKept(s: seq<Alert>)
    ensures forall j :: 0 <= j < |s| && EarliestOfKey(s, j) ==> s[j] in FirstOccurrences(s)
    decreases |s|
  {
    if s != [] {
      var init := s[..|s| - 1];
      var last := s[|s| - 1];
      var r0 := FirstOccurrences(init);
      EarliestAlertsAreKept(init);
      assert s == init + [last];
      if DedupKey(last) in KeysOf(init) {
        assert FirstOccurrences(s) == r0;
      } else {
        assert FirstOccurrences(s) == r0 + [last];
      }
      forall j | 0 <= j < |s| && EarliestOfKey(s, j)
        ensures s[j] in FirstOccurrences(s)
      {
        if j < |s| - 1 {
          assert init[j] == s[j];
          forall j' | 0 <= j' < j ensures DedupKey(init[j']) != DedupKey(init[j]) {
            assert init[j'] == s[j'];
          }
          assert EarliestOfKey(init, j);
        }
      }
    }
  }

  lemma NewKeyStaysDistinct(r: seq<Alert>, x: Alert)
    requires forall i, j :: 0 <= i < j < |r| ==> DedupKey(r[i]) != DedupKey(r[j])
    requires DedupKey(x) !in KeysOf(r)
    ensures forall i, j :: 0 <= i < j < |r + [x]| ==> DedupKey((r + [x])[i]) != DedupKey((r + [x])[j])
  {
    forall i | 0 <= i < |r| ensures DedupKey(r[i]) != DedupKey(x) {
      assert r[i] in r;
    }
  }

  /** One more alert of the batch: it is kept exactly when its pair is new. */
  lemma FirstOccurrencesPrefix(s: seq<Alert>, i: int)
    requires 0 <= i < |s|
    ensures FirstOccurrences(s[..i + 1]) ==
              FirstOccurrences(s[..i]) + (if DedupKey(s[i]) in KeysOf(s[..i]) then [] else [s[i]])
    ensures KeysOf(s[..i + 1]) == KeysOf(s[..i]) + {DedupKey(s[i])}
  {
    assert s[..i + 1] == s[..i] + [s[i]];
    assert s[..i + 1][..i] == s[..i];
    KeysOfAppend(s[..i], s[i]);
  }

  /** The dedup pass: keep the first alert of each (route_id, departure_time) pair. */
  method DeduplicateAlerts(alerts: seq<Alert>) returns (deduped: seq<Alert>)
    ensures deduped == FirstOccurrences(alerts)
    ensures IsSubsequence(deduped, alerts)
    ensures forall i, j :: 0 <= i < j < |deduped| ==> DedupKey(deduped[i]) != DedupKey(deduped[j])
    ensures KeysOf(deduped) == KeysOf(alerts)
  {
    var seen: set<(Scalar, Scalar)> := {};
    deduped := [];
    var i := 0;
    while i < |alerts|
      invariant 0 <= i <= |alerts|
      invariant deduped == FirstOccurrences(alerts[..i])
      invariant seen == KeysOf(alerts[..i])
    {
      var alert := alerts[i];
      var key := DedupKey(alert);
      FirstOccurrencesPrefix(alerts, i);
      if key !in seen {
        seen := seen + {key};
        deduped := deduped + [alert];
      }
      i := i + 1;
    }
    assert alerts[..i] == alerts;
    FirstOccurrencesSpec(alerts);
  }

  /** The same properties in Python's terms: no two kept alerts have equal
      `(route_id, departure_time)` tuples, and every alert of the batch has
      an equal tuple among the kept ones. */
  lemma FirstOccurrencesByTupleEquality(s: seq<Alert>)
    ensures var r := FirstOccurrences(s);
            && (forall i, j :: 0 <= i < j < |r| ==> !SameRouteAndTime(r[i], r[j]))
            && (forall a :: a in s ==> exists b :: b in r && SameRouteAndTime(a, b))
  {
    var r := FirstOccurrences(s);
    FirstOccurrencesSpec(s);
    forall i, j | 0 <= i < j < |r|
      ensures !SameRouteAndTime(r[i], r[j])
    {
      DedupKeyIsTupleEquality(r[i], r[j]);
    }
    forall a | a in s
      ensures exists b :: b in r && SameRouteAndTime(a, b)
    {
      assert DedupKey(a) in KeysOf(r);
      var b :| b in r && DedupKey(b) == DedupKey(a);
      DedupKeyIsTupleEquality(a, b);
    }
  }

  // ----- The run -----

  /** The whole decision part of a run: nothing outside the active window or
      while paused; otherwise stamp the run, drop stale records, process the
      routes and deduplicate the alert batch. */
  method Run(store: StateManager, env: RunConfig, window: ActiveWindow, clock: LocalClock,
             paused: bool, routes: seq<RouteInput>)
    returns (alerts: seq<Alert>, delays: seq<DelayUpdate>)
    modifies store
    ensures !IsActiveTime(window, clock) || paused ==>
              && alerts == [] && delays == []
              && store.trackedDepartures == old(store.trackedDepartures)
              && store.lastRun == old(store.lastRun)
    ensures IsActiveTime(window, clock) && !paused ==>
              var final := RouteLoop(env, KeepRecent(old(store.trackedDepartures),
                                                     env.now - MaxAgeHours * 3600), routes);
              && store.lastRun == Some(env.now)
              && store.trackedDepartures == final.tracked
              && alerts == FirstOccurrences(final.alerts)
              && delays == final.delays
  {
    if !IsActiveTime(window, clock) {
      return [], [];
    }
    if paused {
      return [], [];
    }
    store.UpdateLastRun(env.now);
    store.CleanupOldEntries(env.now, MaxAgeHours);
    ghost var cleaned := store.trackedDepartures;
    alerts, delays := CheckRoutes(store, env, routes);
    ghost var final := RouteLoop(env, cleaned, routes);
    assert alerts == final.alerts;
    if |alerts| > 0 {
      alerts := DeduplicateAlerts(alerts);
    }
  }

  /** What an active run hands on, from the store `init` left after the
      stale records were dropped: alerts with pairwise different
      (route_id, departure_time) pairs, each one queued by the route loop
      for a key not alerted in `init`, and delay updates one per key. */
  lemma RunOutput(env: RunConfig, init: seq<TrackedDeparture>, routes: seq<RouteInput>)
    ensures var final := RouteLoop(env, init, routes);
            var out := FirstOccurrences(final.alerts);
            && (forall i, j :: 0 <= i < j < |out| ==> DedupKey(out[i]) != DedupKey(out[j]))
            && (forall a :: a in out ==> a in final.alerts && !Alerted(init, a.key))
            && (forall i, j :: 0 <= i < j < |final.delays| ==> final.delays[i].key != final.delays[j].key)
  {
    var final := RouteLoop(env, init, routes);
    RunAlertsOncePerKey(env, init, routes);
    FirstOccurrencesSpec(final.alerts);
    var out := FirstOccurrences(final.alerts);
    forall a | a in out
      ensures a in final.alerts && !Alerted(init, a.key)
    {
      SubsequenceMembers(out, final.alerts, a);
      var i :| 0 <= i < |final.alerts| && final.alerts[i] == a;
    }
  }
}

=== FILE: schedule.dfy ===
/** The active monitoring window: configured weekdays and an inclusive
    range of minutes since local midnight. The caller supplies the local
    weekday, hour and minute; converting the current instant to the
    configured time zone is not part of this model. */
module Schedule {

  /** Weekdays count from 0 (Monday) to 6 (Sunday). */
  datatype ActiveWindow = ActiveWindow(
    activeDays: seq<int>,
    startHour: int, startMinute: int,
    endHour: int, endMinute: int)

  datatype LocalClock = LocalClock(weekday: int, hour: int, minute: int)

  function MinutesSinceMidnight(hour: int, minute: int): int {
    hour * 60 + minute
  }

  /** Active only on a listed weekday, and only for a window that does not
      wrap past midnight. */
  predicate IsActiveTime(w: ActiveWindow, c: LocalClock)
    ensures IsActiveTime(w, c) ==> c.weekday in w.activeDays
    ensures IsActiveTime(w, c) ==>
              MinutesSinceMidnight(w.startHour, w.startMinute) <= MinutesSinceMidnight(w.endHour, w.endMinute)
  {
    if c.weekday !in w.activeDays then false
    else
      var current := MinutesSinceMidnight(c.hour, c.minute);
      var start := MinutesSinceMidnight(w.startHour, w.startMinute);
      var end := MinutesSinceMidnight(w.endHour, w.endMinute);
      start <= current <= end
  }

  /** Active exactly on a listed weekday within the window, both ends
      included: the first and last minute are active, the minute before the
      start and the minute after the end are not. */
  lemma ActiveWindowBounds(w: ActiveWindow, c: LocalClock)
    ensures IsActiveTime(w, c) <==>
              && c.weekday in w.activeDays
              && w.startHour * 60 + w.startMinute <= c.hour * 60 + c.minute
              && c.hour * 60 + c.minute <= w.endHour * 60 + w.endMinute
    ensures c.weekday in w.activeDays
            && w.startHour * 60 + w.startMinute <= w.endHour * 60 + w.endMinute ==>
              && IsActiveTime(w, LocalClock(c.weekday, w.startHour, w.startMinute))
              && IsActiveTime(w, LocalClock(c.weekday, w.endHour, w.endMinute))
    ensures c.hour * 60 + c.minute == w.startHour * 60 + w.startMinute - 1 ==> !IsActiveTime(w, c)
    ensures c.hour * 60 + c.minute == w.endHour * 60 + w.endMinute + 1 ==> !IsActiveTime(w, c)
  {
  }

  /** A window that wraps past midnight (start after end) is never active. */
  lemma WrappingWindowNeverActive(w: ActiveWindow, c: LocalClock)
    requires w.startHour * 60 + w.startMinute > w.endHour * 60 + w.endMinute
    ensures !IsActiveTime(w, c)
  {
  }
}

=== FILE: seqs.dfy ===
/** Order-preserving selection from sequences: the model of a Python list
    comprehension with an `if` clause. */
module Seqs {

  /** `a` is obtained from `b` by deleting elements, keeping the order. */
  predicate IsSubsequence<T(==)>(a: seq<T>, b: seq<T>)
    decreases |b|
  {
    && |a| <= |b|
    && (|a| == 0
        || (a[0] == b[0] && IsSubsequence(a[1..], b[1..]))
        || IsSubsequence(a, b[1..]))
  }

  lemma {:induction false} SubsequenceTransitive<T>(a: seq<T>, b: seq<T>, c: seq<T>)
    requires IsSubsequence(a, b) && IsSubsequence(b, c)
    ensures IsSubsequence(a, c)
    decreases |c|
  {
    if |a| == 0 {
    } else if b[0] == c[0] && IsSubsequence(b[1..], c[1..]) {
      if a[0] == b[0] && IsSubsequence(a[1..], b[1..]) {
        SubsequenceTransitive(a[1..], b[1..], c[1..]);
      } else {
        SubsequenceTransitive(a, b[1..], c[1..]);
      }
    } else {
      SubsequenceTransitive(a, b, c[1..]);
    }
  }

  lemma {:induction false} LastIsSubsequence<T>(b: seq<T>, x: T)
    ensures IsSubsequence([x], b + [x])
    decreases |b|
  {
    if b == [] {
      assert b + [x] == [x];
      assert IsSubsequence<T>([], []);
    } else {
      LastIsSubsequence(b[1..], x);
      assert (b + [x])[1..] == b[1..] + [x];
    }
  }

  /** Appending one element to the longer sequence keeps a subsequence, and
      so does appending it to both. */
  lemma {:induction false} SubsequenceAppend<T>(a: seq<T>, b: seq<T>, x: T)
    requires IsSubsequence(a, b)
    ensures IsSubsequence(a, b + [x])
    ensures IsSubsequence(a + [x], b + [x])
    decreases |b|
  {
    if |a| == 0 {
      LastIsSubsequence(b, x);
      assert a + [x] == [x];
    } else if a[0] == b[0] && IsSubsequence(a[1..], b[1..]) {
      SubsequenceAppend(a[1..], b[1..], x);
      assert (b + [x])[1..] == b[1..] + [x];
      assert (a + [x])[1..] == a[1..] + [x];
    } else {
      SubsequenceAppend(a, b[1..], x);
      assert (b + [x])[1..] == b[1..] + [x];
    }
  }

  /** Every element of a subsequence is an element of the whole. */
  lemma {:induction false} SubsequenceMembers<T>(a: seq<T>, b: seq<T>, x: T)
    requires IsSubsequence(a, b) && x in a
    ensures x in b
    decreases |b|
  {
    if a[0] == b[0] && IsSubsequence(a[1..], b[1..]) {
      if x != a[0] {
        SubsequenceMembers(a[1..], b[1..], x);
      }
    } else {
      SubsequenceMembers(a, b[1..], x);
    }
  }

  /** The elements of `s` that satisfy `p`, in their original order. */
  function Filter<T(!new)>(s: seq<T>, p: T -> bool): (r: seq<T>)
    ensures forall x :: x in r <==> x in s && p(x)
    ensures IsSubsequence(r, s)
    decreases |s|
  {
    if s == [] then []
    else
      assert s == [s[0]] + s[1..];
      if p(s[0]) then [s[0]] + Filter(s[1..], p) else Filter(s[1..], p)
  }

  /** Each element passing the test is kept as often as it occurs; the others
      not at all. */
  lemma {:induction false} FilterCount<T(!new)>(s: seq<T>, p: T -> bool)
    ensures forall x :: multiset(Filter(s, p))[x] == if p(x) then multiset(s)[x] else 0
    decreases |s|
  {
    if s != [] {
      FilterCount(s[1..], p);
      assert s == [s[0]] + s[1..];
    }
  }

  /** Filtering a sequence all of whose elements pass changes nothing. */
  lemma {:induction false} FilterKeepsAll<T(!new)>(s: seq<T>, p: T -> bool)
    requires forall x :: x in s ==> p(x)
    ensures Filter(s, p) == s
    decreases |s|
  {
    if s != [] {
      FilterKeepsAll(s[1..], p);
    }
  }
}

=== FILE: state_manager.dfy ===
/** The tracking store: the last run instant and the list of tracked
    departures, updated in place. Persisting to and loading from the state
    file are not part of this model; a freshly constructed store is the
    empty state the source falls back to. */
module StateManagement {
  import opened Wrappers
  import opened Tracking

  class StateManager {
    var lastRun: Option<int>
    var trackedDepartures: seq<TrackedDeparture>

    /** The empty state: no run yet, nothing tracked. */
    constructor ()
      ensures lastRun == None && trackedDepartures == []
      ensures WellFormed(trackedDepartures)
    {
      lastRun := None;
      trackedDepartures := [];
    }

    /** A store holding state read back from the state file. */
    constructor Restore(lastRun: Option<int>, trackedDepartures: seq<TrackedDeparture>)
      ensures this.lastRun == lastRun && this.trackedDepartures == trackedDepartures
    {
      this.lastRun := lastRun;
      this.trackedDepartures := trackedDepartures;
    }

    method UpdateLastRun(runTime: int)
      modifies this`lastRun
      ensures lastRun == Some(runTime)
      ensures trackedDepartures == old(trackedDepartures)
    {
      lastRun := Some(runTime);
    }

    /** Scans for any record with the key whose initial alert is sent. */
    method HasAlerted(routeId: string, tripId: string, stopId: string) returns (b: bool)
      ensures b <==> Alerted(trackedDepartures, DepartureKey(routeId, tripId, stopId))
    {
      var key := DepartureKey(routeId, tripId, stopId);
      var i := 0;
      while i < |trackedDepartures|
        invariant 0 <= i <= |trackedDepartures|
        invariant forall j :: 0 <= j < i ==>
                    !(trackedDepartures[j].key == key && trackedDepartures[j].initialAlertSent)
      {
        var dep := trackedDepartures[i];
        if dep.key == key && dep.initialAlertSent {
          return true;
        }
        i := i + 1;
      }
      return false;
    }

    /** Answers from the first record with the key; false when there is none. */
    method HasSentDelayUpdate(routeId: string, tripId: string, stopId: string) returns (b: bool)
      ensures b <==> DelayNotified(trackedDepartures, DepartureKey(routeId, tripId, stopId))
    {
      var key := DepartureKey(routeId, tripId, stopId);
      var i := 0;
      while i < |trackedDepartures|
        invariant 0 <= i <= |trackedDepartures|
        invariant forall j :: 0 <= j < i ==> trackedDepartures[j].key != key
      {
        var dep := trackedDepartures[i];
        if dep.key == key {
          LookupFirst(trackedDepartures, key, i);
          return dep.delayUpdateSent;
        }
        i := i + 1;
      }
      return false;
    }

    /** The first record with the key, or None. */
    method GetTrackedDeparture(routeId: string, tripId: string, stopId: string)
      returns (r: Option<TrackedDeparture>)
      ensures r == Lookup(trackedDepartures, DepartureKey(routeId, tripId, stopId))
      ensures r.Some? ==> r.value in trackedDepartures
                          && r.value.key == DepartureKey(routeId, tripId, stopId)
    {
      var key := DepartureKey(routeId, tripId, stopId);
      var i := 0;
      while i < |trackedDepartures|
        invariant 0 <= i <= |trackedDepartures|
        invariant forall j :: 0 <= j < i ==> trackedDepartures[j].key != key
      {
        var dep := trackedDepartures[i];
        if dep.key == key {
          LookupFirst(trackedDepartures, key, i);
          return Some(dep);
        }
        i := i + 1;
      }
      return None;
    }

    /** Upsert: rewrite the first record with the key, or append a new one. */
    method RecordAlert(routeId: string, tripId: string, stopId: string,
                       departureTime: int, alertTime: int)
      modifies this`trackedDepartures
      ensures trackedDepartures
                == WithAlert(old(trackedDepartures), routeId, tripId, stopId, departureTime, alertTime)
      ensures lastRun == old(lastRun)
    {
      var key := DepartureKey(routeId, tripId, stopId);
      var i := 0;
      while i < |trackedDepartures|
        invariant 0 <= i <= |trackedDepartures|
        invariant trackedDepartures == old(trackedDepartures)
        invariant forall j :: 0 <= j < i ==> trackedDepartures[j].key != key
      {
        var dep := trackedDepartures[i];
        if dep.key == key {
          trackedDepartures := trackedDepartures[i := dep.(
            initialAlertSent := true, initialAlertTime := alertTime,
            originalDepartureTime := departureTime, currentDepartureTime := departureTime)];
          return;
        }
        i := i + 1;
      }
      trackedDepartures := trackedDepartures + [NewRecord(routeId, tripId, stopId, departureTime, alertTime)];
    }

    /** Mark the first record with the key as delay-notified at `now`; no
        effect on an unknown key. */
    method RecordDelayUpdate(routeId: string, tripId: string, stopId: string,
                             newDepartureTime: int, now: int)
      modifies this`trackedDepartures
      ensures trackedDepartures
                == WithDelayUpdate(old(trackedDepartures), DepartureKey(routeId, tripId, stopId),
                                   newDepartureTime, now)
      ensures lastRun == old(lastRun)
    {
      var key := DepartureKey(routeId, tripId, stopId);
      var i := 0;
      while i < |trackedDepartures|
        invariant 0 <= i <= |trackedDepartures|
        invariant trackedDepartures == old(trackedDepartures)
        invariant forall j :: 0 <= j < i ==> trackedDepartures[j].key != key
      {
        var dep := trackedDepartures[i];
        if dep.key == key {
          trackedDepartures := trackedDepartures[i := dep.(
            delayUpdateSent := true, currentDepartureTime := newDepartureTime,
            delayUpdateTime := Some(now))];
          return;
        }
        i := i + 1;
      }
    }

    /** Drop every record first observed `maxAgeHours` or more before `now`. */
    method CleanupOldEntries(now: int, maxAgeHours: int)
      modifies this`trackedDepartures
      ensures trackedDepartures == KeepRecent(old(trackedDepartures), now - maxAgeHours * 3600)
      ensures lastRun == old(lastRun)
    {
      trackedDepartures := KeepRecent(trackedDepartures, now - maxAgeHours * 3600);
    }
  }
}

=== FILE: tracking.dfy ===
/** The tracked-departure records and what the store's operations do to a
    list of them. The StateManager class applies these to its own list. */
module Tracking {
  import opened Wrappers
  import opened Seqs

  /** One tracked departure. Instants are seconds since the epoch. */
  datatype TrackedDeparture = TrackedDeparture(
    key: string,
    routeId: string,
    tripId: string,
    stopId: string,
    originalDepartureTime: int,
    currentDepartureTime: int,
    initialAlertSent: bool,
    initialAlertTime: int,
    delayUpdateSent: bool,
    delayUpdateTime: Option<int>)

  /** The store key `route_trip_stop`: the three ids in order, each pair
      joined by one underscore. */
  function DepartureKey(routeId: string, tripId: string, stopId: string): (k: string)
    ensures |k| == |routeId| + |tripId| + |stopId| + 2
    ensures k[..|routeId|] == routeId && k[|routeId|] == '_'
    ensures k[|routeId| + 1..|routeId| + 1 + |tripId|] == tripId
    ensures k[|routeId| + 1 + |tripId|] == '_'
    ensures k[|routeId| + |tripId| + 2..] == stopId
  {
    routeId + "_" + tripId + "_" + stopId
  }

  lemma {:induction false} SplitAtFirstSeparator(a1: string, b1: string, a2: string, b2: string)
    requires '_' !in a1 && '_' !in a2
    requires a1 + "_" + b1 == a2 + "_" + b2
    ensures a1 == a2 && b1 == b2
  {
    var k := a1 + "_" + b1;
    FirstSeparator(a1, b1);
    FirstSeparator(a2, b2);
    assert |a1| == |a2|;
    assert a1 == k[..|a1|] == a2;
    assert b1 == k[|a1| + 1..] == b2;
  }

  lemma FirstSeparator(a: string, b: string)
    requires '_' !in a
    ensures (a + "_" + b)[|a|] == '_'
    ensures forall j :: 0 <= j < |a| ==> (a + "_" + b)[j] != '_'
  {
    forall j | 0 <= j < |a| ensures (a + "_" + b)[j] != '_' {
      assert (a + "_" + b)[j] == a[j];
    }
  }

  /** Keys tell departures apart as long as route and trip ids carry no
      underscore; the stop id may. */
  lemma DepartureKeyInjective(r1: string, t1: string, s1: string, r2: string, t2: string, s2: string)
    requires '_' !in r1 && '_' !in t1 && '_' !in r2 && '_' !in t2
    requires DepartureKey(r1, t1, s1) == DepartureKey(r2, t2, s2)
    ensures r1 == r2 && t1 == t2 && s1 == s2
  {
    assert DepartureKey(r1, t1, s1) == r1 + "_" + (t1 + "_" + s1);
    assert DepartureKey(r2, t2, s2) == r2 + "_" + (t2 + "_" + s2);
    SplitAtFirstSeparator(r1, t1 + "_" + s1, r2, t2 + "_" + s2);
    SplitAtFirstSeparator(t1, s1, t2, s2);
  }

  /** With an underscore inside an id, two different departures share a key. */
  lemma DepartureKeyCollision()
    ensures DepartureKey("1_2", "3", "4") == DepartureKey("1", "2_3", "4")
  {
  }

  /** The position of the first record with `key`, or |s| when there is none. */
  function FindKey(s: seq<TrackedDeparture>, key: string): (i: nat)
    ensures i <= |s|
    ensures forall j :: 0 <= j < i ==> s[j].key != key
    ensures i < |s| ==> s[i].key == key
    decreases |s|
  {
    if s == [] then 0
    else if s[0].key == key then 0
    else 1 + FindKey(s[1..], key)
  }

  /** Some record with `key` has its initial alert sent. */
  predicate Alerted(s: seq<TrackedDeparture>, key: string) {
    exists i :: 0 <= i < |s| && s[i].key == key && s[i].initialAlertSent
  }

  /** The first record with `key` has its delay update sent. */
  predicate DelayNotified(s: seq<TrackedDeparture>, key: string) {
    var i := FindKey(s, key);
    i < |s| && s[i].delayUpdateSent
  }

  /** The first record with `key`, if any. */
  function Lookup(s: seq<TrackedDeparture>, key: string): Option<TrackedDeparture> {
    var i := FindKey(s, key);
    if i < |s| then Some(s[i]) else None
  }

  /** The record `record_alert` appends for a key it has not seen. */
  function NewRecord(routeId: string, tripId: string, stopId: string,
                     departureTime: int, alertTime: int): TrackedDeparture
  {
    TrackedDeparture(DepartureKey(routeId, tripId, stopId), routeId, tripId, stopId,
                     departureTime, departureTime, true, alertTime, false, None)
  }

  /** `record_alert`: overwrite the first record with the key, or append a
      new one. */
  function WithAlert(s: seq<TrackedDeparture>, routeId: string, tripId: string, stopId: string,
                     departureTime: int, alertTime: int): seq<TrackedDeparture>
  {
    var i := FindKey(s, DepartureKey(routeId, tripId, stopId));
    if i < |s| then
      s[i := s[i].(initialAlertSent := true, initialAlertTime := alertTime,
                   originalDepartureTime := departureTime, currentDepartureTime := departureTime)]
    else
      s + [NewRecord(routeId, tripId, stopId, departureTime, alertTime)]
  }

  /** `record_delay_update`: mark the first record with the key, if any. */
  function WithDelayUpdate(s: seq<TrackedDeparture>, key: string, newDepartureTime: int,
                           now: int): seq<TrackedDeparture>
  {
    var i := FindKey(s, key);
    if i < |s| then
      s[i := s[i].(delayUpdateSent := true, currentDepartureTime := newDepartureTime,
                   delayUpdateTime := Some(now))]
    else s
  }

  predicate IsRecent(cutoff: int, t: TrackedDeparture) {
    t.originalDepartureTime > cutoff
  }

  function RecentTest(cutoff: int): TrackedDeparture -> bool {
    t => IsRecent(cutoff, t)
  }

  /** `cleanup_old_entries`: the records first observed after `cutoff`. */
  function KeepRecent(s: seq<TrackedDeparture>, cutoff: int): seq<TrackedDeparture> {
    Filter(s, RecentTest(cutoff))
  }

  // ----- Lookups -----

  /** Lookups consult only the first record carrying the key. */
  lemma LookupFirst(s: seq<TrackedDeparture>, key: string, i: nat)
    requires i < |s| && s[i].key == key
    requires forall j :: 0 <= j < i ==> s[j].key != key
    ensures Lookup(s, key) == Some(s[i])
    ensures DelayNotified(s, key) <==> s[i].delayUpdateSent
  {
  }

  /** An unknown key is neither alerted nor delay-notified, and has no record. */
  lemma LookupAbsent(s: seq<TrackedDeparture>, key: string)
    requires forall j :: 0 <= j < |s| ==> s[j].key != key
    ensures Lookup(s, key) == None
    ensures !DelayNotified(s, key)
    ensures !Alerted(s, key)
  {
  }

  // ----- record_alert -----

  /** After `record_alert` the key is alerted, and stays so when the call is
      repeated: a second identical call changes nothing. */
  lemma RecordAlertThenAlerted(s: seq<TrackedDeparture>, routeId: string, tripId: string,
                               stopId: string, departureTime: int, alertTime: int)
    ensures var s' := WithAlert(s, routeId, tripId, stopId, departureTime, alertTime);
            && Alerted(s', DepartureKey(routeId, tripId, stopId))
            && WithAlert(s', routeId, tripId, stopId, departureTime, alertTime) == s'
  {
    var key := DepartureKey(routeId, tripId, stopId);
    var s' := WithAlert(s, routeId, tripId, stopId, departureTime, alertTime);
    var i := FindKey(s, key);
    assert s'[i].key == key && s'[i].initialAlertSent;
    LookupFirst(s', key, i);
  }

  /** The shape of the upsert: on a known key the first record with it is
      rewritten in place and nothing else moves; on a new key exactly one
      record is appended, with no delay update sent. Either way the key's
      first record now carries the new departure as both its original and
      its current time. */
  lemma RecordAlertShape(s: seq<TrackedDeparture>, routeId: string, tripId: string,
                         stopId: string, departureTime: int, alertTime: int)
    ensures var key := DepartureKey(routeId, tripId, stopId);
            var s' := WithAlert(s, routeId, tripId, stopId, departureTime, alertTime);
            var i := FindKey(s, key);
            && (i < |s| ==>
                  && |s'| == |s|
                  && (forall j :: 0 <= j < |s| && j != i ==> s'[j] == s[j])
                  && s'[i] == s[i].(initialAlertSent := true, initialAlertTime := alertTime,
                                    originalDepartureTime := departureTime,
                                    currentDepartureTime := departureTime))
            && (i == |s| ==>
                  && s' == s + [NewRecord(routeId, tripId, stopId, departureTime, alertTime)]
                  && !s'[|s|].delayUpdateSent)
            && Lookup(s', key).Some?
            && Lookup(s', key).value.originalDepartureTime == departureTime
            && Lookup(s', key).value.currentDepartureTime == departureTime
            && Lookup(s', key).value.initialAlertTime == alertTime
  {
    var key := DepartureKey(routeId, tripId, stopId);
    var s' := WithAlert(s, routeId, tripId, stopId, departureTime, alertTime);
    LookupFirst(s', key, FindKey(s, key));
  }

  /** `record_alert` never withdraws an alert or a delay update of any key. */
  lemma RecordAlertMonotone(s: seq<TrackedDeparture>, routeId: string, tripId: string,
                            stopId: string, departureTime: int, alertTime: int, k: string)
    ensures var s' := WithAlert(s, routeId, tripId, stopId, departureTime, alertTime);
            && (Alerted(s, k) ==> Alerted(s', k))
            && (DelayNotified(s, k) ==> DelayNotified(s', k))
  {
    var s' := WithAlert(s, routeId, tripId, stopId, departureTime, alertTime);
    var i := FindKey(s, DepartureKey(routeId, tripId, stopId));
    if Alerted(s, k) {
      var j :| 0 <= j < |s| && s[j].key == k && s[j].initialAlertSent;
      assert s'[j].key == k && s'[j].initialAlertSent;
    }
    if DelayNotified(s, k) {
      var f := FindKey(s, k);
      assert s'[f] == s[f] || (f == i && s'[f].delayUpdateSent && s'[f].key == k);
      LookupFirst(s', k, f);
    }
  }

  /** A position with no earlier record carrying `key`, holding it if it
      is inside the list, is the position `FindKey` returns. */
  lemma FindKeyUnique(s: seq<TrackedDeparture>, key: string, i: nat)
    requires i <= |s|
    requires forall j :: 0 <= j < i ==> s[j].key != key
    requires i < |s| ==> s[i].key == key
    ensures FindKey(s, key) == i
  {
  }

  /** `record_alert` marks its own key as alerted and no other, and leaves
      every key's delay mark as it was. */
  lemma RecordAlertMarksOnlyItsKey(s: seq<TrackedDeparture>, routeId: string, tripId: string,
                                   stopId: string, departureTime: int, alertTime: int, k: string)
    ensures var s' := WithAlert(s, routeId, tripId, stopId, departureTime, alertTime);
            && (Alerted(s', k) <==> Alerted(s, k) || k == DepartureKey(routeId, tripId, stopId))
            && (DelayNotified(s', k) <==> DelayNotified(s, k))
  {
    var key := DepartureKey(routeId, tripId, stopId);
    var s' := WithAlert(s, routeId, tripId, stopId, departureTime, alertTime);
    var i := FindKey(s, key);
    RecordAlertMonotone(s, routeId, tripId, stopId, departureTime, alertTime, k);
    RecordAlertThenAlerted(s, routeId, tripId, stopId, departureTime, alertTime);
    if Alerted(s', k) && k != key {
      var j :| 0 <= j < |s'| && s'[j].key == k && s'[j].initialAlertSent;
      assert j < |s| && j != i;
      assert s[j] == s'[j];
    }
    var f := FindKey(s, k);
    if f < |s| {
      FindKeyUnique(s', k, f);
    } else if i < |s| {
      FindKeyUnique(s', k, f);
    } else if k == key {
      FindKeyUnique(s', k, |s|);
    } else {
      FindKeyUnique(s', k, |s| + 1);
    }
  }

  // ----- record_delay_update -----

  /** On an unknown key `record_delay_update` changes nothing. On a known
      key it rewrites the first record with it and nothing else: delay update
      sent, the new current time, the stamp `now`, and the original time and
      every other field as they were. */
  lemma RecordDelayUpdateShape(s: seq<TrackedDeparture>, key: string, newDepartureTime: int, now: int)
    ensures var s' := WithDelayUpdate(s, key, newDepartureTime, now);
            && (Lookup(s, key).None? ==> s' == s)
            && (Lookup(s, key).Some? ==>
                  var i := FindKey(s, key);
                  && |s'| == |s|
                  && (forall j :: 0 <= j < |s| && j != i ==> s'[j] == s[j])
                  && Lookup(s', key) == Some(Lookup(s, key).value.(
                       delayUpdateSent := true, currentDepartureTime := newDepartureTime,
                       delayUpdateTime := Some(now)))
                  && DelayNotified(s', key))
  {
    var i := FindKey(s, key);
    if i < |s| {
      LookupFirst(WithDelayUpdate(s, key, newDepartureTime, now), key, i);
    }
  }

  /** `record_delay_update` never withdraws an alert or a delay update. */
  lemma RecordDelayUpdateMonotone(s: seq<TrackedDeparture>, key: string, newDepartureTime: int,
                                  now: int, k: string)
    ensures var s' := WithDelayUpdate(s, key, newDepartureTime, now);
            && (Alerted(s, k) ==> Alerted(s', k))
            && (DelayNotified(s, k) ==> DelayNotified(s', k))
  {
    var s' := WithDelayUpdate(s, key, newDepartureTime, now);
    if Alerted(s, k) {
      var j :| 0 <= j < |s| && s[j].key == k && s[j].initialAlertSent;
      assert s'[j].key == k && s'[j].initialAlertSent;
    }
    if DelayNotified(s, k) {
      var f := FindKey(s, k);
      LookupFirst(s', k, f);
    }
  }

  /** `record_delay_update` marks the delay of its own key, when a record
      carries it, and of no other key, and alerts nothing. */
  lemma RecordDelayUpdateMarksOnlyItsKey(s: seq<TrackedDeparture>, key: string,
                                         newDepartureTime: int, now: int, k: string)
    ensures var s' := WithDelayUpdate(s, key, newDepartureTime, now);
            && (Alerted(s', k) <==> Alerted(s, k))
            && (DelayNotified(s', k) <==> DelayNotified(s, k) || (k == key && Lookup(s, key).Some?))
  {
    var s' := WithDelayUpdate(s, key, newDepartureTime, now);
    var i := FindKey(s, key);
    RecordDelayUpdateMonotone(s, key, newDepartureTime, now, k);
    RecordDelayUpdateShape(s, key, newDepartureTime, now);
    if i < |s| {
      if Alerted(s', k) {
        var j :| 0 <= j < |s'| && s'[j].key == k && s'[j].initialAlertSent;
        assert s[j].key == k && s[j].initialAlertSent;
      }
      var f := FindKey(s, k);
      FindKeyUnique(s', k, f);
    }
  }

  // ----- cleanup_old_entries -----

  /** Cleanup keeps exactly the records first observed strictly after the
      cutoff, each as often as before, in their order, with every field
      (delay flags included) as it was. */
  lemma CleanupKeepsRecent(s: seq<TrackedDeparture>, cutoff: int)
    ensures var s' := KeepRecent(s, cutoff);
            && (forall t :: t in s' <==> t in s && t.originalDepartureTime > cutoff)
            && (forall t :: multiset(s')[t] ==
                  if t.originalDepartureTime > cutoff then multiset(s)[t] else 0)
            && IsSubsequence(s', s)
  {
    FilterCount(s, RecentTest(cutoff));
  }

  // ----- Store invariant -----

  /** What every record built by `record_alert` satisfies: its key matches
      its ids, its initial alert is sent, and a sent delay update carries its
      stamp. */
  predicate RecordOk(t: TrackedDeparture) {
    && t.key == DepartureKey(t.routeId, t.tripId, t.stopId)
    && t.initialAlertSent
    && (t.delayUpdateSent ==> t.delayUpdateTime.Some?)
  }

  predicate DistinctKeys(s: seq<TrackedDeparture>) {
    forall i, j :: 0 <= i < j < |s| ==> s[i].key != s[j].key
  }

  /** The store invariant: distinct keys, every record as `record_alert`
      makes it. A store that starts empty keeps it under every operation. */
  predicate WellFormed(s: seq<TrackedDeparture>) {
    DistinctKeys(s) && forall t :: t in s ==> RecordOk(t)
  }

  lemma RecordAlertWellFormed(s: seq<TrackedDeparture>, routeId: string, tripId: string,
                              stopId: string, departureTime: int, alertTime: int)
    requires WellFormed(s)
    ensures WellFormed(WithAlert(s, routeId, tripId, stopId, departureTime, alertTime))
  {
    var key := DepartureKey(routeId, tripId, stopId);
    var s' := WithAlert(s, routeId, tripId, stopId, departureTime, alertTime);
    var i := FindKey(s, key);
    forall a, b | 0 <= a < b < |s'| ensures s'[a].key != s'[b].key {
      if b == |s| {
        assert s'[a] == s[a] && s'[b].key == key;
      } else {
        assert s'[a].key == s[a].key && s'[b].key == s[b].key;
      }
    }
    forall t | t in s' ensures RecordOk(t) {
      var j :| 0 <= j < |s'| && s'[j] == t;
      if j != i {
        assert s[j] == t;
      } else if i < |s| {
        assert RecordOk(s[i]);
      }
    }
  }

  lemma RecordDelayUpdateWellFormed(s: seq<TrackedDeparture>, key: string, newDepartureTime: int, now: int)
    requires WellFormed(s)
    ensures WellFormed(WithDelayUpdate(s, key, newDepartureTime, now))
  {
    var s' := WithDelayUpdate(s, key, newDepartureTime, now);
    var i := FindKey(s, key);
    forall a, b | 0 <= a < b < |s'| ensures s'[a].key != s'[b].key {
      assert s'[a].key == s[a].key && s'[b].key == s[b].key;
    }
    forall t | t in s' ensures RecordOk(t) {
      var j :| 0 <= j < |s'| && s'[j] == t;
      assert RecordOk(s[j]);
    }
  }

  lemma {:induction false} CleanupDistinct(s: seq<TrackedDeparture>, cutoff: int)
    requires DistinctKeys(s)
    ensures DistinctKeys(KeepRecent(s, cutoff))
    decreases |s|
  {
    if s != [] {
      var rest := KeepRecent(s[1..], cutoff);
      CleanupDistinct(s[1..], cutoff);
      if IsRecent(cutoff, s[0]) {
        assert KeepRecent(s, cutoff) == [s[0]] + rest;
        forall j | 0 <= j < |rest| ensures rest[j].key != s[0].key {
          assert rest[j] in s[1..];
        }
      } else {
        assert KeepRecent(s, cutoff) == rest;
      }
    }
  }

  lemma CleanupWellFormed(s: seq<TrackedDeparture>, cutoff: int)
    requires WellFormed(s)
    ensures WellFormed(KeepRecent(s, cutoff))
  {
    CleanupDistinct(s, cutoff);
  }
}

=== FILE: wrappers.dfy ===
/** Optional values and results with an error, used where the source returns
    None or raises. */
module Wrappers {

  datatype Option<+T> = None | Some(value: T) {
    function GetOr(default: T): T {
      match this
      case Some(v) => v
      case None => default
    }
  }

  datatype Result<+R, +E> = Success(value: R) | Failure(error: E)
}
